=== FILE: README.md ===
# Lab-report pipeline core, modelled in Dafny

This project models the deterministic core of the lab-report simplifier. The core is the chain that turns report text into structured lab results, plus the two small helpers around the generated summary:

- **`extractTestsRaw`** (`Extract`) splits the text on runs of `,` `;` and line feeds. It trims every piece, drops empty pieces, and keeps the pieces that hold a digit and a unit token (`g/dL`, `/uL`, `mg/dL` or `%`, in any case).
- **`normalizeTests`** (`Normalize`) decides each candidate's analyte with a chain of case-insensitive patterns. It reads the first numeric token, rescales Hemoglobin and RBC values that lost their decimal point, and reads the status against the function's own inline reference table. Platelet is flagged borderline when the segment says so. The result carries a confidence of 0.85 when any record was produced, and 0 otherwise.
- **`guardAgainstHallucination`** (`Guardrail`) rejects a list of records whose lower-cased names are not all among the lower-cased allowed names.
- **The exported `REF_RANGES` catalog** (`RefRanges`) is set against the normaliser's inline table in `TableContrast`.
- **`cleanOutput`** (`AiClient`) removes the Markdown code fences of a model reply and trims it.

The modelling follows JavaScript as written:

- `String.prototype.match` of `/[\d.]+/` and `/\d+/` is `FirstRun` (module `JsNumber`).
- `parseFloat` of a run of digits and dots is `ParseFloatRun`. It reads digits, at most one dot and digits. NaN is `None`, and numbers are exact `real`s.
- `parseInt` of a digit run is `ParseIntDigits`.
- A case-insensitive regular expression made of a literal is `ContainsCI` (module `AsciiText`).
- When the source indexes `null[0]` after a failed match, it throws a `TypeError`. Here that is `Failure(NoNumericToken(segment))`.
- One iteration of the normaliser's loop is `NormalizeSegment`, where `Success(None)` is the `continue`. The loop is `CollectRecords`.
- `Pipeline` composes extraction and normalisation.

Some behaviour of the code is worth stating plainly, because the rest of the repository or the reader might expect otherwise:

- The confidence is the constant 0.85 when any record was produced (src/services/normalize.js:91).
- The inline table gives Hemoglobin 13–17 g/dL, while the exported catalog gives 12–15.
- `normalizeTests` returns no `provenance` field, although src/routes.js:91 destructures one and src/routes.js:97 maps over it.
- The extractor does not filter metadata lines, repair OCR typos or remove duplicates.
- A small Hemoglobin value is never multiplied by ten.
- A segment that names an analyte but has no numeric token makes the whole call throw. The segment is not silently dropped.

## Model

| member | source | states |
|---|---|---|
| Extract.SplitOnRunsSeparatorFree | src/services/extract.js:3 | no piece of the split contains a comma, semicolon or line feed |
| Extract.TrimPiecesTrimmed | src/services/extract.js:3 | after `map(trim).filter(Boolean)` every piece is non-empty and has no white space at either end |
| Extract.TrimPiecesOrigin | src/services/extract.js:3 | every kept piece is the trim of some piece of the split |
| Extract.HasUnit | src/services/extract.js:8 | the case-insensitive unit test: one of "g/dL", "/uL", "mg/dL" or "%" occurs in the chunk, in any case |
| Extract.IsTestLine | src/services/extract.js:7-9 | a chunk is kept iff it has a digit (`/\d/`) and a unit token |
| Extract.KeepTestLines | src/services/extract.js:6-12 | the filter keeps exactly the pieces with a digit and a unit token (membership) and never more results than pieces; order is stated by `ExtractLemmas.KeepTestLinesAppend`, multiplicity by `Extract.KeepTestLinesCounts` |
| Extract.KeepTestLinesCounts | src/services/extract.js:6-12 | every test line is kept exactly as often as it occurs among the pieces, and nothing else is kept |
| ExtractLemmas.KeepTestLinesAppend | src/services/extract.js:6-12 | filtering `a + b` gives the kept pieces of `a` followed by those of `b`, so kept lines stay in input order |
| Extract.SplitOnRuns | src/services/extract.js:3 | its own contract is only that the split has at least one piece; its meaning is carried by `Extract.SplitOnRunsSeparatorFree`, `ExtractLemmas.RunsAgreeWithEach` and `ExtractLemmas.SplitOnRunsInfix` |
| ExtractLemmas.SplitOnRunsInfix | src/services/extract.js:3 | every piece of the split occurs verbatim in the text |
| Extract.TrimPieces | src/services/extract.js:3 | its own contract is only that no more pieces come out than go in; `Extract.TrimPiecesTrimmed`, `Extract.TrimPiecesOrigin` and `ExtractLemmas.TrimPiecesAppend` carry the rest |
| ExtractLemmas.TrimPiecesAppend | src/services/extract.js:3 | trimming and dropping empty pieces of `a + b` gives those of `a` followed by those of `b` |
| Extract.ExtractTestsRaw | src/services/extract.js:2-15 | every result is a clean test line; a string is a result iff it is a trimmed non-empty piece that passes the filter; no more results than pieces |
| Extract.ChunksAreClean | src/services/extract.js:3 | every trimmed piece is non-empty, trimmed and free of separators |
| ExtractLemmas.RunsAgreeWithEach | src/services/extract.js:3 | once trimmed and filtered, splitting on separator runs equals splitting on each separator |
| ExtractLemmas.ExtractAppend | src/services/extract.js:3-14 | extracting `a + "\n" + b` gives the lines of `a` followed by those of `b` |
| ExtractLemmas.ExtractSingle | src/services/extract.js:3-14 | a single clean test line is extracted as itself |
| ExtractLemmas.ExtractJoinRoundTrip | src/services/extract.js:3-14 | joining clean test lines with line feeds and extracting gives the same list back, duplicates included |
| ExtractLemmas.ExtractIsStable | src/services/extract.js:3-14 | extracting the extractor's own output joined by line feeds returns it unchanged |
| ExtractLemmas.ExtractEmpty | src/services/extract.js:3-14 | the empty text yields no line |
| ExtractLemmas.ExtractedOccursInText | src/services/extract.js:3 | every extracted line occurs verbatim in the input text |
| ExtractLemmas.NoDigitNoTests | src/services/extract.js:7-9 | text without a digit yields no line |
| ExtractLemmas.NoUnitNoTests | src/services/extract.js:8-9 | text without a unit token yields no line |
| ExtractLemmas.UnitMgDlRedundant | src/services/extract.js:8 | the `mg/dL` alternative adds nothing: the unit test holds iff `g/dL`, `/uL` or `%` matches |
| LabTypes.TenAnalytes | src/utils/refRanges.js:1-12 | the analyte names keying both tables are ten different names |
| RefRanges.CatalogWellFormed | src/utils/refRanges.js:1-12 | the catalog is keyed by exactly the ten analyte names and every entry has 0 ≤ low < high |
| Normalize.InlineRangesWellFormed | src/services/normalize.js:2-13 | the inline table is keyed by the same ten names and every entry has 0 ≤ low < high |
| TableContrast.SameKeys | src/utils/refRanges.js:1-12 | the catalog and the inline table have the same ten keys |
| TableContrast.DifferOnlyAt | src/utils/refRanges.js:2-11 | an entry differs between the two tables iff it is Hemoglobin or WBC |
| TableContrast.HemoglobinRanges | src/utils/refRanges.js:2 | the catalog's Hemoglobin range is 12–15 g/dL, while records carry 13–17 g/dL |
| TableContrast.WbcUnits | src/utils/refRanges.js:3 | the WBC ranges agree (4000–11000), but the catalog's unit is "/uL" and records carry "/cumm" |
| Normalize.Mentions | src/services/normalize.js:26-65 | the case-insensitive expression of each branch, alternatives included ("rbc" or "rec", "pcv" or "packed cell volume"), matches the segment |
| Normalize.Name | src/services/normalize.js:27-66 | the name each branch assigns is a key of the inline table |
| Normalize.Rank | src/services/normalize.js:26-69 | the position of each branch in the chain, in the order hemoglobin, rbc/rec, pcv, wbc, platelet, neutrophil, lymphocyte, eosinophil, monocyte, basophil |
| Normalize.Classify | src/services/normalize.js:26-69 | the analyte chosen matches the segment and no earlier branch matches; no analyte iff no expression matches |
| NormalizeLemmas.ClassifyPicksFirst | src/services/normalize.js:26-69 | conversely, a matching analyte with no earlier match is the one chosen |
| NormalizeLemmas.HemoglobinComesFirst | src/services/normalize.js:26 | a segment mentioning hemoglobin is Hemoglobin, even when it mentions wbc as well |
| NormalizeLemmas.RecReadsAsRbc | src/services/normalize.js:31 | any "rec" in a segment without "hemoglobin" makes it RBC |
| Normalize.CleanValue | src/services/normalize.js:15-19 | a value changes iff it is a Hemoglobin above 100 or an RBC above 10, and a changed value is the input divided by ten; a non-negative value never grows, and the result is zero iff the input is |
| NormalizeLemmas.ReadValueRescale | src/services/normalize.js:28-29 | the value is parseFloat of the first digit/dot run. Hemoglobin is divided by ten once iff it is above 100, and RBC iff it is above 10. No other analyte is rescaled |
| NormalizeLemmas.PlateletValueIsDigits | src/services/normalize.js:46 | a platelet value is the first digit run read in base 10 |
| Normalize.ReadValue | src/services/normalize.js:28 | reading fails iff the branch's pattern has no match, with that segment as the error; a read value is never negative |
| JsNumber.FirstRun | src/services/normalize.js:28 | a match, when present, is a non-empty run of characters of the class; `JsNumber.FirstRunFound` and `JsNumber.FirstRunNone` characterise it fully |
| JsNumber.ParseFloatRun | src/services/normalize.js:28 | a value read lies between the integer digits and the integer digits plus one; `JsNumber.ParseFloatDecimal` and `JsNumber.ParseFloatNaN` give the exact value and the NaN case |
| JsNumber.ParseIntDigits | src/services/normalize.js:46 | `parseInt` of a digit run agrees with `parseFloat` of the same run, and is below 10 to the power of its length |
| JsNumber.FirstRunNone | src/services/normalize.js:28 | no match of the run pattern iff no character of the segment is in the class |
| JsNumber.FirstRunFound | src/services/normalize.js:28 | a match is the leftmost maximal run of the class |
| JsNumber.FirstRunAfter | src/services/normalize.js:28 | the match of text with no class character before a run is that run |
| JsNumber.DigitsRoundTrip | src/services/normalize.js:46 | reading back the decimal numeral of n gives n |
| JsNumber.ParseFloatDecimal | src/services/normalize.js:28 | parseFloat of `ip.fp` followed by anything beginning with a dot reads `ip.fp` |
| JsNumber.ParseFloatInteger | src/services/normalize.js:28 | parseFloat of a digit run is its base-10 value |
| JsNumber.ParseFloatNaN | src/services/normalize.js:28 | parseFloat of a digit/dot run is NaN iff it starts with a dot followed by a dot or by nothing |
| JsNumber.ParseFloatNonNegative | src/services/normalize.js:28 | parseFloat of a digit/dot run is never negative |
| JsNumber.DecimalValueBounds | src/services/normalize.js:28 | the integer part of the value read is the integer digits |
| Normalize.RangeStatus | src/services/normalize.js:73-78 | the status is low iff value < low, high iff value > high, and normal on the closed range; never borderline |
| Normalize.StatusTextDistinct | src/services/normalize.js:48-77 | the four status strings "borderline", "low", "high" and "normal" are pairwise distinct, so a record's string determines its status |
| Normalize.MakeRecord | src/services/normalize.js:73-86 | the pushed record is valid: its name, unit and range come from the inline table, and its status is borderline iff flagged, else the range reading |
| Normalize.NormalizeSegment | src/services/normalize.js:24-86 | one loop pass throws iff an analyte is named and its pattern has no match. A kept record is valid, named after the analyte, and its value is exactly the number the analyte's branch read (`Normalize.ReadValue`). It is borderline iff the analyte is Platelet and "borderline" occurs in any case |
| NormalizeLemmas.SegmentDroppedIff | src/services/normalize.js:71 | a segment is dropped iff it names no analyte or its value reads as NaN or 0 |
| NormalizeLemmas.SegmentFailsIff | src/services/normalize.js:28-46 | a segment throws iff it names an analyte and has no character of that branch's class |
| Normalize.Prepend | src/services/normalize.js:23-86 | a throwing pass ends the loop with its error; else a throwing rest does; otherwise a kept record goes at the front of the unchanged rest, and a dropped segment leaves the rest as it is |
| Normalize.CollectRecords | src/services/normalize.js:23-87 | the loop emits at most one record per segment, each of them valid |
| Normalize.NormalizeTests | src/services/normalize.js:1-93 | at most as many records as segments, all valid; confidence is 0.85 iff some record was produced and 0 iff none |
| NormalizeLemmas.CollectAppend | src/services/normalize.js:23-87 | the records of `a + b` are those of `a` followed by those of `b`; a throw in `a` wins |
| NormalizeLemmas.CollectSingle | src/services/normalize.js:23-87 | one segment contributes its record, nothing, or its error |
| NormalizeLemmas.DroppedSegment | src/services/normalize.js:71 | a dropped segment leaves the records of the rest unchanged |
| NormalizeLemmas.CollectIsGather | src/services/normalize.js:23-87 | the loop is the fold of the per-segment outcomes in order |
| NormalizeLemmas.GatherFailsIff | src/services/normalize.js:23 | a fold of outcomes fails iff some outcome fails |
| NormalizeLemmas.NormalizeFailsIff | src/services/normalize.js:23-87 | `normalizeTests` throws iff some segment throws |
| NormalizeLemmas.FirstFailureReported | src/services/normalize.js:23-87 | the error thrown is the first throwing segment's, and every earlier segment was handled |
| NormalizeExamples.ParseFloatStopsAtSecondDot | src/services/normalize.js:28 | parseFloat("12.5.3") is 12.5 |
| NormalizeExamples.ParseLoneDot | src/services/normalize.js:28 | parseFloat(".") is NaN |
| NormalizeExamples.HemoglobinLow | src/services/normalize.js:26-30 | "Hemoglobin 12.5 g/dL" gives Hemoglobin 12.5 g/dL, low against 13–17 |
| NormalizeExamples.HemoglobinRescaledOnce | src/services/normalize.js:15-19 | "Hemoglobin 1250 g/dL" is divided once, to 125, and is high; dividing again would give 12.5 |
| NormalizeExamples.WbcHigh | src/services/normalize.js:40-43 | "WBC 15000 /uL" gives WBC 15000 "/cumm", high |
| NormalizeExamples.PlateletBorderline | src/services/normalize.js:44-48 | "Platelet 140000 (Borderline)" is borderline although its range reading is low |
| NormalizeExamples.DirectReadsAsRbc | src/services/normalize.js:31-35 | "Bilirubin direct 0.3 mg/dL" is read as RBC 0.3 mill/cumm, low |
| NormalizeExamples.PlateletReadsInteger | src/services/normalize.js:46 | "Platelet 1.5" gives a platelet count of 1 |
| NormalizeExamples.PlateletWithoutDigitsThrows | src/services/normalize.js:46 | "Platelet: pending" throws |
| NormalizeExamples.NaNIsDropped | src/services/normalize.js:71 | "Hemoglobin . g/dL" is dropped |
| NormalizeExamples.ZeroIsDropped | src/services/normalize.js:71 | "WBC 0 /uL" is dropped |
| NormalizeExamples.TwoRecords | src/services/normalize.js:89-92 | two readable segments give two records in order, with confidence 0.85 |
| NormalizeExamples.NothingKept | src/services/normalize.js:89-92 | two dropped segments give no record and confidence 0 |
| NormalizeExamples.LaterFailureWins | src/services/normalize.js:23-28 | a throwing segment after a good one makes the whole call throw |
| Pipeline.ProcessNeverThrows | src/services/normalize.js:28-46 | normalising the extractor's output never throws, because every extracted line has a digit |
| Pipeline.ProcessAppend | src/services/extract.js:3 | the records of two reports joined by a line feed are those of the first followed by those of the second |
| Guardrail.AllowedSet | src/utils/guardrail.js:2 | a name is allowed iff it is the lower-case form of a given allowed name; a missing list allows nothing |
| Guardrail.AnyUnknown | src/utils/guardrail.js:3 | the left-to-right `some` is true iff some record's lower-cased name is not allowed |
| Guardrail.Guard | src/utils/guardrail.js:1-8 | the guard returns the "unprocessed" verdict iff some lower-cased name is not allowed, and nothing otherwise |
| Guardrail.GuardRejectsIff | src/utils/guardrail.js:2-7 | the guard rejects iff some record is not vouched for by a case-insensitively equal allowed name |
| Guardrail.EmptyPasses | src/utils/guardrail.js:3 | an empty list of records always passes |
| Guardrail.MissingListRejects | src/utils/guardrail.js:2 | a missing allow-list rejects every non-empty list |
| Guardrail.EmptyListIsMissing | src/utils/guardrail.js:2 | an empty allow-list behaves like a missing one |
| Guardrail.GuardIgnoresCase | src/utils/guardrail.js:2-3 | names that agree up to case, and allow-lists that agree up to case, order and repetition, get the same verdict |
| Guardrail.GuardIgnoresOrder | src/utils/guardrail.js:2 | reordering the allow-list changes nothing |
| Guardrail.GuardIgnoresDuplicates | src/utils/guardrail.js:2 | repeating the allow-list changes nothing |
| Guardrail.GuardMonotoneInAllowList | src/utils/guardrail.js:2-3 | adding allowed names never turns a pass into a rejection |
| Guardrail.GuardMonotoneInTests | src/utils/guardrail.js:3 | removing records never turns a pass into a rejection |
| Guardrail.SelfAllowPasses | src/routes.js:62 | allowing the records' own names always passes |
| AiClient.StripFencesFenceFree | src/services/aiClient.js:17 | after the global removal of "```" none is left, including none formed by the removal |
| AiClient.StripFencesKeepsText | src/services/aiClient.js:17 | the removal deletes backticks and nothing else |
| AiClient.StripFencesOfFenceFree | src/services/aiClient.js:17 | text without "```" is unchanged by the removal |
| AiClient.StripJsonFencesOfFenceFree | src/services/aiClient.js:16 | text without "```" is unchanged by the "```json" removal |
| AiClient.CleanOutput | src/services/aiClient.js:14-19 | the cleaned output is trimmed, contains no "```" and is no longer than the input |
| AiClient.StripJsonFences | src/services/aiClient.js:16 | its own contract is only that the result is no longer than the input; `AiClient.StripJsonFencesAt` (the leftmost "```json", in any case and wherever it stands, is deleted and the text before it kept) and `AiClient.StripJsonFencesOfJsonFree` (text with no such fence is left unchanged) together determine it |
| AiClient.StripJsonFencesKeeps | src/services/aiClient.js:16 | text in which no case-insensitive "```json" starts is kept by the first replacement, whatever follows it |
| AiClient.StripJsonFencesAt | src/services/aiClient.js:16 | the leftmost case-insensitive "```json" is deleted wherever it stands: the text before it is kept and the scan resumes right after it |
| AiClient.StripJsonFencesOfJsonFree | src/services/aiClient.js:16 | text holding no "```json" in any case is unchanged by the first replacement, whatever other backticks it holds |
| AiClient.StripFences | src/services/aiClient.js:17 | its own contract is only that the result is no longer than the input; `AiClient.StripFencesAt` (the leftmost "```" is deleted and the text before it kept) and `AiClient.StripFencesOfFenceFree` (fence-free text is unchanged) together determine it, and `AiClient.StripFencesFenceFree` and `AiClient.StripFencesKeepsText` state its effect |
| AiClient.StripFencesKeeps | src/services/aiClient.js:17 | text in which no "```" starts is kept by the second replacement, whatever follows it |
| AiClient.StripFencesAt | src/services/aiClient.js:17 | the leftmost "```" is deleted wherever it stands: fence-free text before it that does not end in a backtick, and so any lone backticks in it, is kept, and the scan resumes right after it |
| AsciiText.Trim | src/services/aiClient.js:18 | its own contract is only that the result is no longer than the input; `AsciiText.TrimInfix` characterises it |
| AiClient.CleanOutputOfFenceFree | src/services/aiClient.js:14-19 | on text without "```", in particular text without backticks, cleaning is just trim |
| AiClient.CleanOutputIdempotent | src/services/aiClient.js:14-19 | cleaning twice is cleaning once |
| AiClient.FencedJsonExample | src/services/aiClient.js:16-18 | "```JSON\n{"a": 1}\n```" is cleaned to `{"a": 1}`: the json marker is matched in any case |
| AsciiText.TrimInfix | src/services/aiClient.js:18 | `trim` returns a trimmed infix of its input with only white space around it |

## Left out

- The HTTP routes, file upload, temporary files and status codes of src/routes.js are plumbing. So is its blend of stage confidences, which is floating-point formatting. Only the allow-list fallback at src/routes.js:62 is modelled, as `Guardrail.SelfAllowPasses`.
- The summary generation of src/services/summarize.js, the `runAI` call, the API-key check and model selection of src/services/aiClient.js, OCR (src/services/ocr.js) and the server start-up are left out. Each is I/O or a call into a remote model.
- `runAI`'s `JSON.parse` of the cleaned text is left out. JSON parsing is not part of this model.
- Numbers are exact rationals, not IEEE-754 doubles. Rounding of long decimals, `Infinity` and exponents are not modelled. A `[\d.]+` run never contains an exponent or sign, so `parseFloat` only ever sees digits and dots.
- Case folding and white space are ASCII only. JavaScript's `toLowerCase` and `trim` on other Unicode characters are not modelled. (`\d` is exactly `[0-9]` in JavaScript, so `IsDigit` is exact.)
- Arguments that are not strings or arrays are not modelled: `null` records, non-string names and a non-array allow-list that is truthy. A missing allow-list is `None`.
- The guard takes the normaliser's records and reads only their `name` field, as the source does. Records of any other shape are not modelled.
- "`normalizeTests` never reads the catalog" is structural, not stated as a lemma: the `Normalize` module does not import `RefRanges`, and the records carry the inline table's ranges (`Normalize.MakeRecord`, `TableContrast.HemoglobinRanges`).

=== FILE: ai_client.dfy ===
/** `cleanOutput` of src/services/aiClient.js: every "```json" (in any case)
    is deleted, then every remaining "```", then the white space at both ends.
    The global replacements scan from the left and delete non-overlapping
    matches, resuming right after each one. */
module AiClient {
  import opened AsciiText

  const Fence: string := "```"
  const JsonFence: string := "```json"

  /** `s` starts with "```json" in any case. */
  predicate StartsWithJsonFence(s: string) {
    |s| >= 7 && forall k :: 0 <= k < 7 ==> LowerChar(s[k]) == JsonFence[k]
  }

  predicate StartsWithFence(s: string) {
    |s| >= 3 && s[0] == '`' && s[1] == '`' && s[2] == '`'
  }

  /** `s.replace(/```json/gi, "")`. */
  function StripJsonFences(s: string): (r: string)
    ensures |r| <= |s|
    decreases |s|
  {
    if |s| == 0 then ""
    else if StartsWithJsonFence(s) then StripJsonFences(s[7..])
    else [s[0]] + StripJsonFences(s[1..])
  }

  /** `s.replace(/```/g, "")`. */
  function StripFences(s: string): (r: string)
    ensures |r| <= |s|
    decreases |s|
  {
    if |s| == 0 then ""
    else if StartsWithFence(s) then StripFences(s[3..])
    else [s[0]] + StripFences(s[1..])
  }

  /** `cleanOutput`: the result is trimmed and holds no "```". */
  function CleanOutput(output: string): (r: string)
    ensures |r| <= |output|
    ensures IsTrimmed(r)
    ensures FenceFree(r) && !Contains(r, Fence)
  {
    var u := StripFences(StripJsonFences(output));
    StripFencesFenceFree(StripJsonFences(output));
    TrimFenceFree(u);
    Trim(u)
  }

  /** No "```" anywhere in `s`. */
  predicate FenceFree(s: string) {
    forall i :: 0 <= i && i + |Fence| <= |s| ==> !OccursAt(Fence, s, i)
  }

  lemma FenceFreeIff(s: string)
    ensures FenceFree(s) <==> !Contains(s, Fence)
  {
    ContainsIff(s, Fence);
  }

  lemma FenceAt(s: string, i: int)
    requires 0 <= i && i + 3 <= |s|
    ensures OccursAt(Fence, s, i) <==> s[i] == '`' && s[i + 1] == '`' && s[i + 2] == '`'
  {
    assert |Fence| == 3 && Fence[0] == '`' && Fence[1] == '`' && Fence[2] == '`';
    if s[i] == '`' && s[i + 1] == '`' && s[i + 2] == '`' {
      forall k | 0 <= k < |Fence| ensures s[i + k] == Fence[k] {
        assert k == 0 || k == 1 || k == 2;
      }
    }
  }

  /** Deletion only leaves a backtick at the front where there was one. */
  lemma {:induction false} StripFencesHead(s: string)
    ensures |StripFences(s)| > 0 && StripFences(s)[0] == '`' ==> |s| > 0 && s[0] == '`'
    ensures |StripFences(s)| > 1 && StripFences(s)[0] == '`' && StripFences(s)[1] == '`' ==>
      |s| > 1 && s[0] == '`' && s[1] == '`'
    decreases |s|
  {
    if |s| > 0 && !StartsWithFence(s) {
      StripFencesHead(s[1..]);
      assert StripFences(s)[1..] == StripFences(s[1..]);
    } else if |s| > 0 {
      StripFencesHead(s[3..]);
    }
  }

  /** Deleting every "```" from the left leaves none behind. */
  lemma {:induction false} StripFencesFenceFree(s: string)
    ensures FenceFree(StripFences(s))
    decreases |s|
  {
    if |s| > 0 {
      if StartsWithFence(s) {
        StripFencesFenceFree(s[3..]);
      } else {
        var t := StripFences(s[1..]);
        StripFencesFenceFree(s[1..]);
        StripFencesHead(s[1..]);
        var r := [s[0]] + t;
        assert StripFences(s) == r;
        forall i ensures !OccursAt(Fence, r, i) {
          if 0 < i && i + 3 <= |r| {
            assert !OccursAt(Fence, t, i - 1);
            FenceAt(t, i - 1);
            FenceAt(r, i);
          } else if i == 0 && 3 <= |r| {
            FenceAt(r, 0);
          }
        }
      }
    }
  }

  /** A string without "```" is left alone by the second replacement. */
  lemma {:induction false} StripFencesOfFenceFree(s: string)
    requires FenceFree(s)
    ensures StripFences(s) == s
    decreases |s|
  {
    if |s| > 0 {
      if |s| >= 3 {
        FenceAt(s, 0);
      }
      forall i ensures !OccursAt(Fence, s[1..], i) {
        if 0 <= i && i + 3 <= |s| - 1 {
          FenceAt(s, i + 1);
          FenceAt(s[1..], i);
        }
      }
      StripFencesOfFenceFree(s[1..]);
    }
  }

  /** A string without "```" is left alone by the first replacement too. */
  lemma {:induction false} StripJsonFencesOfFenceFree(s: string)
    requires FenceFree(s)
    ensures StripJsonFences(s) == s
    decreases |s|
  {
    if |s| > 0 {
      if |s| >= 7 {
        FenceAt(s, 0);
      }
      forall i ensures !OccursAt(Fence, s[1..], i) {
        if 0 <= i && i + 3 <= |s| - 1 {
          FenceAt(s, i + 1);
          FenceAt(s[1..], i);
        }
      }
      StripJsonFencesOfFenceFree(s[1..]);
    }
  }

  /** A string without "```json" in any case is left alone by the first
      replacement, whatever backticks it holds. */
  lemma {:induction false} StripJsonFencesOfJsonFree(s: string)
    requires !ContainsCI(s, JsonFence)
    ensures StripJsonFences(s) == s
    decreases |s|
  {
    if |s| > 0 {
      if StartsWithJsonFence(s) {
        assert false;
      }
      OccursAtSlice(s, 1, |s|);
      if ContainsCI(s[1..], JsonFence) {
        ContainsCIInfix(s[1..], s, 1, JsonFence);
      }
      StripJsonFencesOfJsonFree(s[1..]);
    }
  }

  /** An infix of a fence-free string is fence-free. */
  lemma FenceFreeInfix(x: string, s: string, j: int)
    requires OccursAt(x, s, j) && FenceFree(s)
    ensures FenceFree(x)
  {
    forall i | OccursAt(Fence, x, i) ensures false {
      OccursAtTrans(Fence, x, s, i, j);
    }
  }

  /** Trimming keeps a text fence-free and makes it trimmed. */
  lemma TrimFenceFree(u: string)
    requires FenceFree(u)
    ensures IsTrimmed(Trim(u))
    ensures FenceFree(Trim(u)) && !Contains(Trim(u), Fence)
  {
    var a := TrimInfix(u);
    FenceFreeInfix(Trim(u), u, a);
    FenceFreeIff(Trim(u));
  }

  /** Without any "```" the cleaning is `trim` alone. */
  lemma CleanOutputOfFenceFree(output: string)
    requires FenceFree(output)
    ensures CleanOutput(output) == Trim(output)
  {
    StripJsonFencesOfFenceFree(output);
    StripFencesOfFenceFree(output);
  }

  /** Cleaning twice is cleaning once. */
  lemma CleanOutputIdempotent(output: string)
    ensures CleanOutput(CleanOutput(output)) == CleanOutput(output)
  {
    var c := CleanOutput(output);
    CleanOutputOfFenceFree(c);
    TrimOfTrimmed(c);
  }

  /** `s` without its backticks. */
  function Unticked(s: string): (r: string)
    ensures '`' !in r
    decreases |s|
  {
    if |s| == 0 then "" else (if s[0] == '`' then "" else [s[0]]) + Unticked(s[1..])
  }

  /** The second replacement deletes backticks and nothing else: apart from
      backticks the text is unchanged, in content and order. */
  lemma {:induction false} StripFencesKeepsText(s: string)
    ensures Unticked(StripFences(s)) == Unticked(s)
    decreases |s|
  {
    if |s| > 0 {
      if StartsWithFence(s) {
        StripFencesKeepsText(s[3..]);
        assert s[1..][1..][1..] == s[3..];
        assert Unticked(s) == Unticked(s[1..]) == Unticked(s[1..][1..]) == Unticked(s[3..]);
      } else {
        StripFencesKeepsText(s[1..]);
        var t := StripFences(s[1..]);
        assert ([s[0]] + t)[1..] == t;
      }
    }
  }

  /** A leading "```json", in any case, is deleted. */
  lemma StripJsonFencesPrefix(p: string, x: string)
    requires |p| == 7 && StartsWithJsonFence(p)
    ensures StripJsonFences(p + x) == StripJsonFences(x)
  {
    assert (p + x)[7..] == x;
    assert forall k :: 0 <= k < 7 ==> (p + x)[k] == p[k];
  }

  /** Text in which no "```json" starts is kept by the first replacement,
      whatever follows it. */
  lemma {:induction false} StripJsonFencesKeeps(x: string, z: string)
    requires forall i :: 0 <= i < |x| ==> !StartsWithJsonFence((x + z)[i..])
    ensures StripJsonFences(x + z) == x + StripJsonFences(z)
    decreases |x|
  {
    if |x| == 0 {
      assert x + z == z;
    } else {
      var s := x + z;
      var t := x[1..] + z;
      assert s[0..] == s;
      assert s[1..] == t;
      forall i | 0 <= i < |x[1..]| ensures !StartsWithJsonFence(t[i..]) {
        assert t[i..] == s[i + 1..];
      }
      StripJsonFencesKeeps(x[1..], z);
      assert [x[0]] + (x[1..] + StripJsonFences(z)) == x + StripJsonFences(z);
    }
  }

  /** The first "```json" (in any case) is deleted wherever it stands: the
      text before it is kept and the scan resumes right after it. */
  lemma StripJsonFencesAt(x: string, p: string, y: string)
    requires |p| == 7 && StartsWithJsonFence(p)
    requires forall i :: 0 <= i < |x| ==> !StartsWithJsonFence((x + p + y)[i..])
    ensures StripJsonFences(x + p + y) == x + StripJsonFences(y)
  {
    assert x + p + y == x + (p + y);
    StripJsonFencesKeeps(x, p + y);
    StripJsonFencesPrefix(p, y);
  }

  /** Text in which no "```" starts is kept by the second replacement,
      whatever follows it. */
  lemma {:induction false} StripFencesKeeps(x: string, z: string)
    requires forall i :: 0 <= i < |x| ==> !StartsWithFence((x + z)[i..])
    ensures StripFences(x + z) == x + StripFences(z)
    decreases |x|
  {
    if |x| == 0 {
      assert x + z == z;
    } else {
      var s := x + z;
      var t := x[1..] + z;
      assert s[0..] == s;
      assert s[1..] == t;
      forall i | 0 <= i < |x[1..]| ensures !StartsWithFence(t[i..]) {
        assert t[i..] == s[i + 1..];
      }
      StripFencesKeeps(x[1..], z);
      assert [x[0]] + (x[1..] + StripFences(z)) == x + StripFences(z);
    }
  }

  /** The first "```" is deleted wherever it stands: fence-free text before it
      that does not end in a backtick is kept, and the scan resumes after it. */
  lemma StripFencesAt(x: string, y: string)
    requires FenceFree(x) && (|x| == 0 || x[|x| - 1] != '`')
    ensures StripFences(x + Fence + y) == x + StripFences(y)
  {
    var s := x + Fence + y;
    forall i | 0 <= i < |x| ensures !StartsWithFence(s[i..]) {
      if i + 3 <= |x| {
        FenceAt(x, i);
        assert s[i] == x[i] && s[i + 1] == x[i + 1] && s[i + 2] == x[i + 2];
      } else {
        assert s[|x| - 1] == x[|x| - 1];
      }
    }
    assert s == x + (Fence + y);
    StripFencesKeeps(x, Fence + y);
    assert (Fence + y)[3..] == y;
  }

  /** Text without a 'j' in either case holds no "```json" and is kept whole. */
  lemma {:induction false} StripJsonFencesWithoutJ(s: string)
    requires Avoids(s, {'j'})
    ensures StripJsonFences(s) == s
    decreases |s|
  {
    if |s| > 0 {
      if |s| >= 7 {
        assert LowerChar(s[3]) != JsonFence[3];
      }
      StripJsonFencesWithoutJ(s[1..]);
    }
  }

  /** Text without backticks passes the second replacement unchanged, whatever follows it. */
  lemma {:induction false} StripFencesUnticked(x: string, y: string)
    requires '`' !in x
    ensures StripFences(x + y) == x + StripFences(y)
    decreases |x|
  {
    if |x| > 0 {
      assert (x + y)[0] == x[0];
      assert (x + y)[1..] == x[1..] + y;
      StripFencesUnticked(x[1..], y);
      assert [x[0]] + (x[1..] + StripFences(y)) == x + StripFences(y);
    } else {
      assert x + y == y;
    }
  }

  const ExampleJson: string := "{\"a\": 1}"
  const ExampleBody: string := "\n" + ExampleJson + "\n"

  lemma ExampleBodyFacts()
    ensures Avoids(ExampleBody + Fence, {'j'})
    ensures '`' !in ExampleBody
    ensures |ExampleJson| > 0 && IsTrimmed(ExampleJson)
  {
  }

  /** A reply wrapped in a "```JSON" fence is cleaned down to the JSON text. */
  lemma FencedJsonExample()
    ensures CleanOutput("```JSON" + ExampleBody + Fence) == ExampleJson
  {
    var x := ExampleBody + Fence;
    assert "```JSON" + ExampleBody + Fence == "```JSON" + x;
    ExampleBodyFacts();
    StripJsonFencesPrefix("```JSON", x);
    StripJsonFencesWithoutJ(x);
    StripFencesUnticked(ExampleBody, Fence);
    assert StripFences(Fence) == "";
    assert StripFences(x) == ExampleBody;
    TrimAround("\n", ExampleJson, "\n");
  }
}

=== FILE: ascii_text.dfy ===
/** ASCII string primitives standing in for the JavaScript built-ins the
    pipeline relies on: `\d`, case-insensitive regular-expression matching of a
    literal, `String.prototype.trim` and `toLowerCase`.  Strings are `seq<char>`;
    case folding and white space are restricted to ASCII. */
module AsciiText {

  /** The regular-expression class `\d`. */
  predicate IsDigit(c: char) {
    '0' <= c <= '9'
  }

  /** The ASCII part of the white space `trim` removes: tab, line feed,
      vertical tab, form feed, carriage return and space. */
  predicate IsSpace(c: char) {
    c == ' ' || c == '\t' || c == '\n' || c == '\r' || c == '\U{B}' || c == '\U{C}'
  }

  function LowerChar(c: char): (d: char)
    ensures 'A' <= c <= 'Z' ==> 'a' <= d <= 'z'
    ensures !('A' <= c <= 'Z') ==> d == c
  {
    if 'A' <= c <= 'Z' then (c as int + 32) as char else c
  }

  /** `toLowerCase`, restricted to ASCII letters. */
  function Lower(s: string): (r: string)
    ensures |r| == |s|
    ensures forall i :: 0 <= i < |s| ==> r[i] == LowerChar(s[i])
  {
    seq(|s|, i requires 0 <= i < |s| => LowerChar(s[i]))
  }

  /** `p` occurs in `s`, searched from the left. */
  predicate Contains(s: string, p: string)
    decreases |s|
  {
    OccursAt(p, s, 0) || (|s| > 0 && Contains(s[1..], p))
  }

  /** `p` occurs in `s` at index `i`. */
  predicate OccursAt(p: string, s: string, i: int) {
    0 <= i && i + |p| <= |s| && forall k :: 0 <= k < |p| ==> s[i + k] == p[k]
  }

  /** A case-insensitive regular expression made of the literal `p` matches `s`. */
  predicate ContainsCI(s: string, p: string) {
    Contains(Lower(s), Lower(p))
  }

  predicate HasDigit(s: string) {
    exists i :: 0 <= i < |s| && IsDigit(s[i])
  }

  /** Neither end of `s` is white space. */
  predicate IsTrimmed(s: string) {
    |s| == 0 || (!IsSpace(s[0]) && !IsSpace(s[|s| - 1]))
  }

  /** Number of white-space characters at the front of `s`. */
  function LeadingSpaces(s: string): (n: nat)
    ensures n <= |s|
  {
    if |s| > 0 && IsSpace(s[0]) then 1 + LeadingSpaces(s[1..]) else 0
  }

  /** `LeadingSpaces` counts exactly the white space before the first other character. */
  lemma LeadingSpacesAreSpaces(s: string)
    ensures forall i :: 0 <= i < LeadingSpaces(s) ==> IsSpace(s[i])
    ensures LeadingSpaces(s) < |s| ==> !IsSpace(s[LeadingSpaces(s)])
  {
    if |s| > 0 && IsSpace(s[0]) {
      LeadingSpacesAreSpaces(s[1..]);
    }
  }

  /** Number of white-space characters at the end of `s`. */
  function TrailingSpaces(s: string): (n: nat)
    ensures n <= |s|
  {
    if |s| > 0 && IsSpace(s[|s| - 1]) then 1 + TrailingSpaces(s[..|s| - 1]) else 0
  }

  /** `TrailingSpaces` counts exactly the white space after the last other character. */
  lemma {:induction false} TrailingSpacesAreSpaces(s: string)
    ensures forall i :: |s| - TrailingSpaces(s) <= i < |s| ==> IsSpace(s[i])
    ensures TrailingSpaces(s) < |s| ==> !IsSpace(s[|s| - TrailingSpaces(s) - 1])
    decreases |s|
  {
    if |s| > 0 && IsSpace(s[|s| - 1]) {
      var u := s[..|s| - 1];
      var n := TrailingSpaces(u);
      TrailingSpacesAreSpaces(u);
      assert TrailingSpaces(s) == n + 1;
      forall i | |s| - (n + 1) <= i < |s| ensures IsSpace(s[i]) {
        if i < |s| - 1 {
          assert s[i] == u[i];
        }
      }
      if n + 1 < |s| {
        assert s[|s| - (n + 1) - 1] == u[|u| - n - 1];
      }
    }
  }

  /** `String.prototype.trim`: white space is removed from the start, then from
      the end of what is left. */
  function Trim(s: string): (r: string)
    ensures |r| <= |s|
  {
    var t := s[LeadingSpaces(s)..];
    t[..|t| - TrailingSpaces(t)]
  }

  /** What `Trim` removes: the result is trimmed, it is the infix of `s` at
      index `a`, and everything before and after it is white space. */
  lemma TrimInfix(s: string) returns (a: nat)
    ensures IsTrimmed(Trim(s))
    ensures OccursAt(Trim(s), s, a)
    ensures forall i :: 0 <= i < a ==> IsSpace(s[i])
    ensures forall i :: a + |Trim(s)| <= i < |s| ==> IsSpace(s[i])
  {
    a := LeadingSpaces(s);
    var t := s[a..];
    var r := Trim(s);
    LeadingSpacesAreSpaces(s);
    TrailingSpacesAreSpaces(t);
    assert r == t[..|t| - TrailingSpaces(t)];
    if |r| > 0 {
      assert r[0] == s[a];
      assert r[|r| - 1] == t[|t| - TrailingSpaces(t) - 1];
    }
    forall k | 0 <= k < |r| ensures s[a + k] == r[k] {
      assert r[k] == t[k];
    }
    forall i | a + |r| <= i < |s| ensures IsSpace(s[i]) {
      assert s[i] == t[i - a];
    }
  }

  lemma {:induction false} ContainsOccurs(s: string, p: string) returns (i: int)
    requires Contains(s, p)
    ensures OccursAt(p, s, i)
    decreases |s|
  {
    if OccursAt(p, s, 0) {
      i := 0;
    } else {
      var j := ContainsOccurs(s[1..], p);
      OccursAtTail(p, s, j);
      i := j + 1;
    }
  }

  lemma {:induction false} OccursContains(s: string, p: string, i: int)
    requires OccursAt(p, s, i)
    ensures Contains(s, p)
    decreases i
  {
    if i > 0 {
      forall k | 0 <= k < |p| ensures s[1..][i - 1 + k] == p[k] {
        assert s[1..][i - 1 + k] == s[i + k];
      }
      OccursContains(s[1..], p, i - 1);
    }
  }

  /** `Contains` is the left-to-right search for an occurrence. */
  lemma ContainsIff(s: string, p: string)
    ensures Contains(s, p) <==> exists i :: OccursAt(p, s, i)
  {
    if Contains(s, p) {
      var i := ContainsOccurs(s, p);
    }
    forall i | OccursAt(p, s, i) ensures Contains(s, p) {
      OccursContains(s, p, i);
    }
  }

  lemma OccursAtLower(p: string, s: string, i: int)
    requires OccursAt(p, s, i)
    ensures OccursAt(Lower(p), Lower(s), i)
  {
    assert Lower(s)[i..i + |p|] == Lower(p);
  }

  lemma OccursAtSlice(s: string, a: nat, b: nat)
    requires a <= b <= |s|
    ensures OccursAt(s[a..b], s, a)
  {
  }

  lemma OccursAtTail(p: string, s: string, i: int)
    requires |s| > 0 && OccursAt(p, s[1..], i)
    ensures OccursAt(p, s, i + 1)
  {
    forall k | 0 <= k < |p| ensures s[i + 1 + k] == p[k] {
      assert s[i + 1 + k] == s[1..][i + k];
    }
  }

  /** Occurrence is transitive: an infix of an infix is an infix. */
  lemma OccursAtTrans(p: string, q: string, s: string, i: int, j: int)
    requires OccursAt(p, q, i) && OccursAt(q, s, j)
    ensures OccursAt(p, s, i + j)
  {
    forall k | 0 <= k < |p| ensures s[i + j + k] == p[k] {
      assert p[k] == q[i..i + |p|][k] == q[i + k];
      assert q[i + k] == s[j..j + |q|][i + k];
    }
  }

  /** A pattern with a character that does not occur in `s` does not occur in `s`. */
  lemma NotContainsChar(s: string, p: string, j: int)
    requires 0 <= j < |p| && p[j] !in s
    ensures !Contains(s, p)
  {
    ContainsIff(s, p);
  }

  /** No character of `s` lower-cases into `cs`. */
  predicate Avoids(s: string, cs: set<char>) {
    forall i :: 0 <= i < |s| ==> LowerChar(s[i]) !in cs
  }

  /** A pattern with a character that `s` has in neither case does not match `s`. */
  lemma NotContainsCIChar(s: string, p: string, j: int)
    requires 0 <= j < |p| && Avoids(s, {LowerChar(p[j])})
    ensures !ContainsCI(s, p)
  {
    NotContainsChar(Lower(s), Lower(p), j);
  }

  /** `p` matches `s` case-insensitively at index `i`. */
  lemma ContainsCIAt(s: string, p: string, i: int)
    requires 0 <= i && i + |p| <= |s|
    requires forall k :: 0 <= k < |p| ==> LowerChar(s[i + k]) == LowerChar(p[k])
    ensures ContainsCI(s, p)
  {
    OccursContains(Lower(s), Lower(p), i);
  }

  /** Case-insensitive containment carries over from an infix to the whole string. */
  lemma ContainsCIInfix(x: string, s: string, j: int, p: string)
    requires OccursAt(x, s, j) && ContainsCI(x, p)
    ensures ContainsCI(s, p)
  {
    ContainsIff(Lower(x), Lower(p));
    var i :| OccursAt(Lower(p), Lower(x), i);
    OccursAtLower(x, s, j);
    OccursAtTrans(Lower(p), Lower(x), Lower(s), i, j);
    ContainsIff(Lower(s), Lower(p));
  }

  /** Containing `p + q` implies containing `q`. */
  lemma ContainsSuffixPattern(s: string, p: string, q: string)
    requires Contains(s, p + q)
    ensures Contains(s, q)
  {
    ContainsIff(s, p + q);
    var i :| OccursAt(p + q, s, i);
    assert s[i + |p|..i + |p| + |q|] == (p + q)[|p|..];
    assert OccursAt(q, s, i + |p|);
    ContainsIff(s, q);
  }

  lemma HasDigitInfix(x: string, s: string, j: int)
    requires OccursAt(x, s, j) && HasDigit(x)
    ensures HasDigit(s)
  {
    var k :| 0 <= k < |x| && IsDigit(x[k]);
    assert s[j + k] == x[k];
  }

  /** A trimmed string is its own trim. */
  lemma TrimOfTrimmed(s: string)
    requires IsTrimmed(s)
    ensures Trim(s) == s
  {
    assert LeadingSpaces(s) == 0;
    assert s[0..] == s;
    if |s| > 0 {
      assert TrailingSpaces(s) == 0;
    }
  }

  lemma {:induction false} LeadingSpacesOf(a: string, m: string)
    requires forall i :: 0 <= i < |a| ==> IsSpace(a[i])
    requires |m| > 0 && !IsSpace(m[0])
    ensures LeadingSpaces(a + m) == |a|
    decreases |a|
  {
    if |a| > 0 {
      assert (a + m)[1..] == a[1..] + m;
      LeadingSpacesOf(a[1..], m);
    } else {
      assert a + m == m;
    }
  }

  lemma {:induction false} TrailingSpacesOf(m: string, b: string)
    requires forall i :: 0 <= i < |b| ==> IsSpace(b[i])
    requires |m| > 0 && !IsSpace(m[|m| - 1])
    ensures TrailingSpaces(m + b) == |b|
    decreases |b|
  {
    if |b| > 0 {
      assert (m + b)[..|m + b| - 1] == m + b[..|b| - 1];
      TrailingSpacesOf(m, b[..|b| - 1]);
    } else {
      assert m + b == m;
    }
  }

  /** Trimming white space off a trimmed text gives the text back. */
  lemma TrimAround(a: string, m: string, b: string)
    requires forall i :: 0 <= i < |a| ==> IsSpace(a[i])
    requires forall i :: 0 <= i < |b| ==> IsSpace(b[i])
    requires |m| > 0 && IsTrimmed(m)
    ensures Trim(a + m + b) == m
  {
    var t := m + b;
    assert t[0] == m[0];
    LeadingSpacesOf(a, t);
    assert a + m + b == a + t;
    assert (a + t)[|a|..] == t;
    TrailingSpacesOf(m, b);
    assert t[..|t| - |b|] == m;
  }
}

=== FILE: extract.dfy ===
/** The candidate extractor of src/services/extract.js: free text is split on
    runs of commas, semicolons and line feeds, every piece is trimmed, empty
    pieces are dropped, and a piece is kept when it holds a digit and one of the
    unit tokens. */
module Extract {
  import opened AsciiText

  /** The character class `[,;\n]`. */
  predicate IsSeparator(c: char) {
    c == ',' || c == ';' || c == '\n'
  }

  predicate SeparatorFree(s: string) {
    forall i :: 0 <= i < |s| ==> !IsSeparator(s[i])
  }

  /** `s.split(/[,;\n]+/)`, read off character by character: a maximal run of
      separators is one boundary, so an empty piece appears only at the very
      start or the very end.  The expression cannot match the empty string,
      so this is exactly the list of texts between consecutive matches. */
  function SplitOnRuns(s: string): (r: seq<string>)
    ensures |r| >= 1
  {
    if |s| == 0 then [""]
    else
      var rest := SplitOnRuns(s[1..]);
      if !IsSeparator(s[0]) then [[s[0]] + rest[0]] + rest[1..]
      else if |s| > 1 && IsSeparator(s[1]) then rest
      else [""] + rest
  }

  /** Splitting on every single separator, the reference definition the
      run-splitting is compared with: consecutive separators yield empty
      pieces. */
  function SplitOnEach(s: string): (r: seq<string>)
    ensures |r| >= 1
  {
    if |s| == 0 then [""]
    else
      var rest := SplitOnEach(s[1..]);
      if !IsSeparator(s[0]) then [[s[0]] + rest[0]] + rest[1..]
      else [""] + rest
  }

  lemma {:induction false} SplitOnRunsSeparatorFree(s: string)
    ensures forall k :: 0 <= k < |SplitOnRuns(s)| ==> SeparatorFree(SplitOnRuns(s)[k])
  {
    if |s| > 0 {
      var rest := SplitOnRuns(s[1..]);
      SplitOnRunsSeparatorFree(s[1..]);
      if !IsSeparator(s[0]) {
        var h := [s[0]] + rest[0];
        assert SeparatorFree(h) by {
          forall i | 0 <= i < |h| ensures !IsSeparator(h[i]) {
            if i > 0 {
              assert h[i] == rest[0][i - 1];
            }
          }
        }
        forall k | 0 <= k < |SplitOnRuns(s)| ensures SeparatorFree(SplitOnRuns(s)[k]) {
          if k > 0 {
            assert SplitOnRuns(s)[k] == rest[k];
          }
        }
      } else if !(|s| > 1 && IsSeparator(s[1])) {
        forall k | 0 <= k < |SplitOnRuns(s)| ensures SeparatorFree(SplitOnRuns(s)[k]) {
          if k > 0 {
            assert SplitOnRuns(s)[k] == rest[k - 1];
          }
        }
      }
    }
  }

  /** A piece as the extractor hands it on: non-empty, trimmed, separator-free. */
  predicate IsCleanPiece(s: string) {
    s != "" && IsTrimmed(s) && SeparatorFree(s)
  }

  /** `.map(s => s.trim()).filter(Boolean)`. */
  function TrimPieces(ps: seq<string>): (r: seq<string>)
    ensures |r| <= |ps|
  {
    if |ps| == 0 then []
    else
      var t := Trim(ps[0]);
      (if t == "" then [] else [t]) + TrimPieces(ps[1..])
  }

  /** Every kept piece is non-empty and trimmed. */
  lemma TrimPiecesTrimmed(ps: seq<string>)
    ensures forall k :: 0 <= k < |TrimPieces(ps)| ==> TrimPieces(ps)[k] != "" && IsTrimmed(TrimPieces(ps)[k])
  {
    forall x | x in TrimPieces(ps) ensures x != "" && IsTrimmed(x) {
      var j := TrimPiecesOrigin(ps, x);
      var a := TrimInfix(ps[j]);
    }
  }

  /** Trimming adds no character, so separator-free pieces stay separator-free. */
  lemma TrimPiecesSeparatorFree(ps: seq<string>)
    requires forall k :: 0 <= k < |ps| ==> SeparatorFree(ps[k])
    ensures forall k :: 0 <= k < |TrimPieces(ps)| ==> SeparatorFree(TrimPieces(ps)[k])
  {
    forall x | x in TrimPieces(ps) ensures SeparatorFree(x) {
      var j := TrimPiecesOrigin(ps, x);
      TrimIsSeparatorFree(ps[j]);
    }
  }

  lemma TrimIsSeparatorFree(p: string)
    ensures SeparatorFree(p) ==> SeparatorFree(Trim(p))
  {
    var a := TrimInfix(p);
    var t := Trim(p);
    if SeparatorFree(p) {
      forall i | 0 <= i < |t| ensures !IsSeparator(t[i]) {
        assert t[i] == p[a + i];
      }
    }
  }

  /** Every piece kept by `TrimPieces` is the trim of some input piece. */
  lemma TrimPiecesOrigin(ps: seq<string>, x: string) returns (j: nat)
    requires x in TrimPieces(ps)
    ensures j < |ps| && Trim(ps[j]) == x
  {
    if Trim(ps[0]) != "" && x == Trim(ps[0]) {
      j := 0;
    } else {
      var j' := TrimPiecesOrigin(ps[1..], x);
      j := j' + 1;
    }
  }

  /** The trimmed, non-empty pieces of the input text. */
  function Chunks(text: string): seq<string> {
    TrimPieces(SplitOnRuns(text))
  }

  /** `/(g\/dL|\/uL|mg\/dL|%)/i`. */
  predicate HasUnit(c: string) {
    ContainsCI(c, "g/dL") || ContainsCI(c, "/uL") || ContainsCI(c, "mg/dL") || ContainsCI(c, "%")
  }

  /** The filter of the loop: a digit (`/\d/`) and a unit token. */
  predicate IsTestLine(c: string) {
    HasDigit(c) && HasUnit(c)
  }

  function KeepTestLines(cs: seq<string>): (r: seq<string>)
    ensures |r| <= |cs|
    ensures forall k :: 0 <= k < |r| ==> IsTestLine(r[k])
    ensures forall x :: x in r <==> x in cs && IsTestLine(x)
  {
    if |cs| == 0 then []
    else (if IsTestLine(cs[0]) then [cs[0]] else []) + KeepTestLines(cs[1..])
  }

  /** The filter keeps every test line as often as it occurs, and nothing else. */
  lemma {:induction false} KeepTestLinesCounts(cs: seq<string>)
    ensures forall x :: multiset(KeepTestLines(cs))[x] == if IsTestLine(x) then multiset(cs)[x] else 0
    decreases |cs|
  {
    if |cs| > 0 {
      KeepTestLinesCounts(cs[1..]);
      assert cs == [cs[0]] + cs[1..];
    }
  }

  /** `extractTestsRaw`: every result is a clean test line, and a string is a
      result exactly when it is a trimmed non-empty piece of the text that passes
      the digit and unit filter. */
  function ExtractTestsRaw(text: string): (r: seq<string>)
    ensures |r| <= |Chunks(text)|
    ensures forall k :: 0 <= k < |r| ==> IsCleanPiece(r[k]) && IsTestLine(r[k])
    ensures forall x :: x in r <==> x in Chunks(text) && IsTestLine(x)
  {
    ChunksAreClean(text);
    KeepTestLines(Chunks(text))
  }

  /** Every chunk is non-empty, trimmed and free of separators. */
  lemma ChunksAreClean(text: string)
    ensures forall k :: 0 <= k < |Chunks(text)| ==> IsCleanPiece(Chunks(text)[k])
  {
    SplitOnRunsSeparatorFree(text);
    TrimPiecesSeparatorFree(SplitOnRuns(text));
    TrimPiecesTrimmed(SplitOnRuns(text));
  }

  /** Lines of text joined with line feeds, as `Array.prototype.join("\n")`. */
  function JoinLines(xs: seq<string>): string {
    if |xs| == 0 then ""
    else if |xs| == 1 then xs[0]
    else xs[0] + "\n" + JoinLines(xs[1..])
  }

  lemma HeadTail<T>(xs: seq<T>)
    requires |xs| > 0
    ensures [xs[0]] + xs[1..] == xs
  {
  }
}

=== FILE: extract_lemmas.dfy ===
/** Properties of the candidate extractor: the run-splitting of
    `split(/[,;\n]+/)` agrees with splitting on each separator once pieces are
    trimmed, extraction distributes over line breaks, round-trips through
    `join("\n")`, and never invents text. */
module ExtractLemmas {
  import opened AsciiText
  import opened Extract

  // ---------------------------------------------------------------------
  // Trimming and filtering distribute over concatenation

  lemma AppendAssoc<T>(x: seq<T>, y: seq<T>, z: seq<T>)
    ensures x + (y + z) == (x + y) + z
  {
  }

  /** The pieces `TrimPieces` keeps from a single piece. */
  function TrimOne(p: string): seq<string> {
    var t := Trim(p);
    if t == "" then [] else [t]
  }

  lemma TrimPiecesCons(ps: seq<string>)
    requires |ps| > 0
    ensures TrimPieces(ps) == TrimOne(ps[0]) + TrimPieces(ps[1..])
  {
  }

  lemma {:induction false} TrimPiecesAppend(a: seq<string>, b: seq<string>)
    ensures TrimPieces(a + b) == TrimPieces(a) + TrimPieces(b)
    decreases |a|
  {
    if |a| == 0 {
      assert a + b == b;
    } else {
      calc {
        TrimPieces(a + b);
        { TrimPiecesCons(a + b); assert (a + b)[0] == a[0]; assert (a + b)[1..] == a[1..] + b; }
        TrimOne(a[0]) + TrimPieces(a[1..] + b);
        { TrimPiecesAppend(a[1..], b); }
        TrimOne(a[0]) + (TrimPieces(a[1..]) + TrimPieces(b));
        { AppendAssoc(TrimOne(a[0]), TrimPieces(a[1..]), TrimPieces(b)); }
        (TrimOne(a[0]) + TrimPieces(a[1..])) + TrimPieces(b);
        { TrimPiecesCons(a); }
        TrimPieces(a) + TrimPieces(b);
      }
    }
  }

  /** The lines `KeepTestLines` keeps from a single piece. */
  function KeepOne(c: string): seq<string> {
    if IsTestLine(c) then [c] else []
  }

  lemma KeepTestLinesCons(cs: seq<string>)
    requires |cs| > 0
    ensures KeepTestLines(cs) == KeepOne(cs[0]) + KeepTestLines(cs[1..])
  {
  }

  lemma {:induction false} KeepTestLinesAppend(a: seq<string>, b: seq<string>)
    ensures KeepTestLines(a + b) == KeepTestLines(a) + KeepTestLines(b)
    decreases |a|
  {
    if |a| == 0 {
      assert a + b == b;
    } else {
      calc {
        KeepTestLines(a + b);
        { KeepTestLinesCons(a + b); assert (a + b)[0] == a[0]; assert (a + b)[1..] == a[1..] + b; }
        KeepOne(a[0]) + KeepTestLines(a[1..] + b);
        { KeepTestLinesAppend(a[1..], b); }
        KeepOne(a[0]) + (KeepTestLines(a[1..]) + KeepTestLines(b));
        { AppendAssoc(KeepOne(a[0]), KeepTestLines(a[1..]), KeepTestLines(b)); }
        (KeepOne(a[0]) + KeepTestLines(a[1..])) + KeepTestLines(b);
        { KeepTestLinesCons(a); }
        KeepTestLines(a) + KeepTestLines(b);
      }
    }
  }

  // ---------------------------------------------------------------------
  // Splitting on runs versus splitting on each separator

  /** Splitting on each separator turns a line feed into a list boundary. */
  lemma {:induction false} SplitOnEachAppend(a: string, b: string)
    ensures SplitOnEach(a + "\n" + b) == SplitOnEach(a) + SplitOnEach(b)
    decreases |a|
  {
    var s := a + "\n" + b;
    if |a| == 0 {
      assert s[0] == '\n';
      assert s[1..] == b;
    } else {
      assert s[0] == a[0];
      assert s[1..] == a[1..] + "\n" + b;
      SplitOnEachAppend(a[1..], b);
      var ra := SplitOnEach(a[1..]);
      var rb := SplitOnEach(b);
      if !IsSeparator(a[0]) {
        assert (ra + rb)[0] == ra[0];
        assert (ra + rb)[1..] == ra[1..] + rb;
        AppendAssoc([[a[0]] + ra[0]], ra[1..], rb);
      } else {
        AppendAssoc([""], ra, rb);
      }
    }
  }

  /** The list without its empty strings, what `.filter(Boolean)` keeps. */
  function RemoveEmpty(xs: seq<string>): seq<string> {
    if |xs| == 0 then [] else (if xs[0] == "" then [] else [xs[0]]) + RemoveEmpty(xs[1..])
  }

  lemma RemoveEmptyCons(x: string, ys: seq<string>)
    ensures RemoveEmpty([x] + ys) == (if x == "" then [] else [x]) + RemoveEmpty(ys)
  {
    assert ([x] + ys)[0] == x;
    assert ([x] + ys)[1..] == ys;
  }

  /** Empty pieces contribute nothing to the trimmed pieces. */
  lemma {:induction false} TrimPiecesRemoveEmpty(ps: seq<string>)
    ensures TrimPieces(RemoveEmpty(ps)) == TrimPieces(ps)
    decreases |ps|
  {
    if |ps| > 0 {
      TrimPiecesRemoveEmpty(ps[1..]);
      TrimPiecesCons(ps);
      var r := RemoveEmpty(ps[1..]);
      if ps[0] == "" {
        assert Trim("") == "";
        assert TrimOne(ps[0]) == [];
        assert RemoveEmpty(ps) == [] + r;
        assert [] + r == r;
        assert TrimPieces(ps) == [] + TrimPieces(ps[1..]);
      } else {
        assert RemoveEmpty(ps) == [ps[0]] + r;
        TrimPiecesCons([ps[0]] + r);
        assert ([ps[0]] + r)[0] == ps[0];
        assert ([ps[0]] + r)[1..] == r;
      }
    }
  }

  /** Both splittings start with the same piece. */
  lemma {:induction false} FirstPiecesAgree(s: string)
    ensures SplitOnRuns(s)[0] == SplitOnEach(s)[0]
    decreases |s|
  {
    if |s| > 0 {
      FirstPiecesAgree(s[1..]);
      if IsSeparator(s[0]) && |s| > 1 && IsSeparator(s[1]) {
        LeadingSeparatorEmptyPiece(s);
      }
    }
  }

  lemma AppendCancel<T>(h: seq<T>, x: seq<T>, y: seq<T>)
    requires h + x == h + y
    ensures x == y
  {
    assert x == (h + x)[|h|..];
    assert y == (h + y)[|h|..];
  }

  /** The two splittings differ only in empty pieces. */
  lemma {:induction false} RunsEachRemoveEmpty(s: string)
    ensures RemoveEmpty(SplitOnRuns(s)) == RemoveEmpty(SplitOnEach(s))
    decreases |s|
  {
    if |s| > 0 {
      var r := SplitOnRuns(s[1..]);
      var e := SplitOnEach(s[1..]);
      RunsEachRemoveEmpty(s[1..]);
      if !IsSeparator(s[0]) {
        FirstPiecesAgree(s[1..]);
        var h := [s[0]] + r[0];
        HeadTail(r);
        HeadTail(e);
        RemoveEmptyCons(r[0], r[1..]);
        RemoveEmptyCons(e[0], e[1..]);
        AppendCancel(if r[0] == "" then [] else [r[0]], RemoveEmpty(r[1..]), RemoveEmpty(e[1..]));
        RemoveEmptyCons(h, r[1..]);
        RemoveEmptyCons(h, e[1..]);
      } else if |s| > 1 && IsSeparator(s[1]) {
        RemoveEmptyCons("", e);
      } else {
        RemoveEmptyCons("", r);
        RemoveEmptyCons("", e);
      }
    }
  }

  /** After trimming and dropping empty pieces, splitting on runs of separators
      (what `split(/[,;\n]+/)` does) and splitting on each separator agree. */
  lemma RunsAgreeWithEach(s: string)
    ensures TrimPieces(SplitOnRuns(s)) == TrimPieces(SplitOnEach(s))
  {
    TrimPiecesRemoveEmpty(SplitOnRuns(s));
    TrimPiecesRemoveEmpty(SplitOnEach(s));
    RunsEachRemoveEmpty(s);
  }

  // ---------------------------------------------------------------------
  // Properties of extractTestsRaw

  lemma ExtractViaEach(text: string)
    ensures ExtractTestsRaw(text) == KeepTestLines(TrimPieces(SplitOnEach(text)))
  {
    RunsAgreeWithEach(text);
  }

  /** Extraction distributes over a line break: `extract(a + "\n" + b)` is
      `extract(a) + extract(b)`, so the order of the input is kept and
      duplicates are not removed. */
  lemma ExtractAppend(a: string, b: string)
    ensures ExtractTestsRaw(a + "\n" + b) == ExtractTestsRaw(a) + ExtractTestsRaw(b)
  {
    ExtractViaEach(a + "\n" + b);
    ExtractViaEach(a);
    ExtractViaEach(b);
    SplitOnEachAppend(a, b);
    TrimPiecesAppend(SplitOnEach(a), SplitOnEach(b));
    KeepTestLinesAppend(TrimPieces(SplitOnEach(a)), TrimPieces(SplitOnEach(b)));
  }

  lemma {:induction false} SplitOnEachSeparatorFree(x: string)
    requires SeparatorFree(x)
    ensures SplitOnEach(x) == [x]
    decreases |x|
  {
    if |x| > 0 {
      SplitOnEachSeparatorFree(x[1..]);
      assert [x[0]] + x[1..] == x;
    }
  }

  lemma TrimPiecesSingle(x: string)
    requires IsCleanPiece(x)
    ensures TrimPieces([x]) == [x]
  {
    TrimOfTrimmed(x);
    assert [x][1..] == [];
  }

  lemma KeepTestLinesSingle(x: string)
    requires IsTestLine(x)
    ensures KeepTestLines([x]) == [x]
  {
    assert [x][1..] == [];
  }

  /** A single clean test line is extracted as itself. */
  lemma ExtractSingle(x: string)
    requires IsCleanPiece(x) && IsTestLine(x)
    ensures ExtractTestsRaw(x) == [x]
  {
    ExtractViaEach(x);
    SplitOnEachSeparatorFree(x);
    TrimPiecesSingle(x);
    KeepTestLinesSingle(x);
  }

  /** The empty text yields no test line. */
  lemma ExtractEmpty()
    ensures ExtractTestsRaw("") == []
  {
    assert SplitOnRuns("") == [""];
    assert Trim("") == "";
    assert TrimPieces([""]) == [] by {
      assert [""][1..] == [];
    }
  }

  /** Round trip: clean test lines joined with line feeds are extracted back
      as the same list. */
  lemma {:induction false} ExtractJoinRoundTrip(xs: seq<string>)
    requires forall k :: 0 <= k < |xs| ==> IsCleanPiece(xs[k]) && IsTestLine(xs[k])
    ensures ExtractTestsRaw(JoinLines(xs)) == xs
    decreases |xs|
  {
    if |xs| == 0 {
      ExtractEmpty();
    } else if |xs| == 1 {
      ExtractSingle(xs[0]);
    } else {
      ExtractAppend(xs[0], JoinLines(xs[1..]));
      ExtractSingle(xs[0]);
      ExtractJoinRoundTrip(xs[1..]);
      HeadTail(xs);
    }
  }

  /** Extracting the extractor's own output, joined by line feeds, gives it back. */
  lemma ExtractIsStable(text: string)
    ensures ExtractTestsRaw(JoinLines(ExtractTestsRaw(text))) == ExtractTestsRaw(text)
  {
    ExtractJoinRoundTrip(ExtractTestsRaw(text));
  }

  /** A text that starts with a separator has the empty string as first piece. */
  lemma {:induction false} LeadingSeparatorEmptyPiece(s: string)
    requires |s| > 0 && IsSeparator(s[0])
    ensures SplitOnRuns(s)[0] == ""
    decreases |s|
  {
    if |s| > 1 && IsSeparator(s[1]) {
      LeadingSeparatorEmptyPiece(s[1..]);
    }
  }

  /** The first piece of the split is a prefix of the text. */
  lemma {:induction false} SplitOnRunsHead(s: string)
    ensures OccursAt(SplitOnRuns(s)[0], s, 0)
    decreases |s|
  {
    if |s| > 0 {
      if !IsSeparator(s[0]) {
        var rest := SplitOnRuns(s[1..]);
        var h := [s[0]] + rest[0];
        SplitOnRunsHead(s[1..]);
        assert SplitOnRuns(s)[0] == h;
        forall k | 0 <= k < |h| ensures s[k] == h[k] {
          if k > 0 {
            assert s[k] == s[1..][k - 1];
          }
        }
      } else {
        LeadingSeparatorEmptyPiece(s);
      }
    }
  }

  /** Every piece of the split occurs verbatim in the text. */
  lemma {:induction false} SplitOnRunsInfix(s: string, k: nat) returns (i: nat)
    requires k < |SplitOnRuns(s)|
    ensures OccursAt(SplitOnRuns(s)[k], s, i)
    decreases |s|
  {
    if k == 0 {
      SplitOnRunsHead(s);
      i := 0;
    } else {
      var rest := SplitOnRuns(s[1..]);
      var j: nat;
      if !IsSeparator(s[0]) || (|s| > 1 && IsSeparator(s[1])) {
        assert SplitOnRuns(s)[k] == rest[k];
        j := SplitOnRunsInfix(s[1..], k);
      } else {
        assert SplitOnRuns(s)[k] == rest[k - 1];
        j := SplitOnRunsInfix(s[1..], k - 1);
      }
      OccursAtTail(SplitOnRuns(s)[k], s, j);
      i := j + 1;
    }
  }

  lemma ExtractedIsChunk(text: string, x: string)
    requires x in ExtractTestsRaw(text)
    ensures x in TrimPieces(SplitOnRuns(text))
  {
  }

  /** The trim of a piece of the split occurs verbatim in the text. */
  lemma TrimmedPieceOccurs(text: string, j: nat) returns (i: nat)
    requires j < |SplitOnRuns(text)|
    ensures OccursAt(Trim(SplitOnRuns(text)[j]), text, i)
  {
    var p := SplitOnRuns(text)[j];
    var a := TrimInfix(p);
    var b := SplitOnRunsInfix(text, j);
    OccursAtTrans(Trim(p), p, text, a, b);
    i := a + b;
  }

  /** Every extracted line occurs verbatim in the input text. */
  lemma ExtractedOccursInText(text: string, x: string) returns (i: nat)
    requires x in ExtractTestsRaw(text)
    ensures OccursAt(x, text, i)
  {
    ExtractedIsChunk(text, x);
    var j := TrimPiecesOrigin(SplitOnRuns(text), x);
    i := TrimmedPieceOccurs(text, j);
  }

  /** Text without a digit yields no test line. */
  lemma NoDigitNoTests(text: string)
    requires !HasDigit(text)
    ensures ExtractTestsRaw(text) == []
  {
    var r := ExtractTestsRaw(text);
    if |r| > 0 {
      var i := ExtractedOccursInText(text, r[0]);
      HasDigitInfix(r[0], text, i);
    }
  }

  /** Text without any unit token yields no test line. */
  lemma NoUnitNoTests(text: string)
    requires !HasUnit(text)
    ensures ExtractTestsRaw(text) == []
  {
    var r := ExtractTestsRaw(text);
    if |r| > 0 {
      var x := r[0];
      var i := ExtractedOccursInText(text, x);
      if ContainsCI(x, "g/dL") {
        ContainsCIInfix(x, text, i, "g/dL");
      } else if ContainsCI(x, "/uL") {
        ContainsCIInfix(x, text, i, "/uL");
      } else if ContainsCI(x, "mg/dL") {
        ContainsCIInfix(x, text, i, "mg/dL");
      } else {
        ContainsCIInfix(x, text, i, "%");
      }
    }
  }

  /** The `mg/dL` alternative of the unit expression is redundant: any string it
      matches is already matched by `g/dL`. */
  lemma UnitMgDlRedundant(c: string)
    ensures HasUnit(c) <==> ContainsCI(c, "g/dL") || ContainsCI(c, "/uL") || ContainsCI(c, "%")
  {
    if ContainsCI(c, "mg/dL") {
      assert Lower("mg/dL") == "m" + Lower("g/dL");
      ContainsSuffixPattern(Lower(c), "m", Lower("g/dL"));
    }
  }
}

=== FILE: guardrail.dfy ===
/** `guardAgainstHallucination` of src/utils/guardrail.js: a list of records
    passes when every record's name, lower-cased, is among the lower-cased
    allowed names; otherwise the verdict is "unprocessed".  A missing
    (`null` or `undefined`) allow-list counts as the empty list. */
module Guardrail {
  import opened Outcomes
  import opened AsciiText
  import opened Normalize

  /** The object the guard returns in place of `null`. */
  datatype Verdict = Verdict(status: string, reason: string)

  const Rejected: Verdict := Verdict("unprocessed", "hallucinated tests not present in input")

  /** `new Set((allowedNames || []).map(n => n.toLowerCase()))`. */
  function AllowedSet(allowedNames: Option<seq<string>>): (r: set<string>)
    ensures forall n :: n in r <==> allowedNames.Some? && exists m :: m in allowedNames.value && Lower(m) == n
  {
    match allowedNames
    case None => {}
    case Some(names) => set m | m in names :: Lower(m)
  }

  /** `normalizedTests.some(t => !allowed.has(t.name.toLowerCase()))`, from the left. */
  function AnyUnknown(tests: seq<TestRecord>, allowed: set<string>): (b: bool)
    ensures b <==> exists i :: 0 <= i < |tests| && Lower(tests[i].name) !in allowed
    decreases |tests|
  {
    if |tests| == 0 then false
    else if Lower(tests[0].name) !in allowed then true
    else
      var b := AnyUnknown(tests[1..], allowed);
      assert forall i :: 0 < i < |tests| ==> tests[i] == tests[1..][i - 1];
      b
  }

  /** The guard: `None` stands for the `null` that lets the pipeline go on. */
  function Guard(tests: seq<TestRecord>, allowedNames: Option<seq<string>>): (r: Option<Verdict>)
    ensures r.Some? ==> r.value == Rejected
    ensures r.Some? <==> exists i :: 0 <= i < |tests| && Lower(tests[i].name) !in AllowedSet(allowedNames)
  {
    if AnyUnknown(tests, AllowedSet(allowedNames)) then Some(Rejected) else None
  }

  /** A record is vouched for by the allow-list when its lower-cased name is
      the lower-cased form of some allowed name. */
  predicate Vouched(t: TestRecord, allowedNames: Option<seq<string>>) {
    allowedNames.Some? && exists m :: m in allowedNames.value && Lower(m) == Lower(t.name)
  }

  /** The guard rejects exactly when some record is not vouched for. */
  lemma GuardRejectsIff(tests: seq<TestRecord>, allowedNames: Option<seq<string>>)
    ensures Guard(tests, allowedNames).Some? <==> exists t :: t in tests && !Vouched(t, allowedNames)
  {
    if Guard(tests, allowedNames).Some? {
      var i :| 0 <= i < |tests| && Lower(tests[i].name) !in AllowedSet(allowedNames);
      assert tests[i] in tests && !Vouched(tests[i], allowedNames);
    }
  }

  /** An empty list of records always passes, whatever the allow-list. */
  lemma EmptyPasses(allowedNames: Option<seq<string>>)
    ensures Guard([], allowedNames) == None
  {
  }

  /** A missing allow-list rejects every non-empty list of records. */
  lemma MissingListRejects(tests: seq<TestRecord>)
    requires |tests| > 0
    ensures Guard(tests, None) == Some(Rejected)
  {
    assert Lower(tests[0].name) !in AllowedSet(None);
  }

  /** An empty allow-list behaves like a missing one (`allowedNames || []`). */
  lemma EmptyListIsMissing(tests: seq<TestRecord>)
    ensures Guard(tests, Some([])) == Guard(tests, None)
  {
    assert AllowedSet(Some([])) == AllowedSet(None);
  }

  /** Only the lower-cased names matter: two records whose names agree up to
      case get the same verdict, and so do two allow-lists holding the same
      names up to case, order and repetition. */
  lemma GuardIgnoresCase(tests: seq<TestRecord>, tests': seq<TestRecord>, a: seq<string>, b: seq<string>)
    requires |tests| == |tests'|
    requires forall i :: 0 <= i < |tests| ==> Lower(tests[i].name) == Lower(tests'[i].name)
    requires forall m :: m in a ==> exists m' :: m' in b && Lower(m') == Lower(m)
    requires forall m' :: m' in b ==> exists m :: m in a && Lower(m) == Lower(m')
    ensures Guard(tests, Some(a)) == Guard(tests', Some(b))
  {
    assert AllowedSet(Some(a)) == AllowedSet(Some(b));
  }

  /** The allow-list as a multiset: reordering it changes nothing. */
  lemma GuardIgnoresOrder(tests: seq<TestRecord>, a: seq<string>, b: seq<string>)
    requires multiset(a) == multiset(b)
    ensures Guard(tests, Some(a)) == Guard(tests, Some(b))
  {
    forall m ensures m in a <==> m in b {
      assert m in a <==> m in multiset(a);
      assert m in b <==> m in multiset(b);
    }
    assert AllowedSet(Some(a)) == AllowedSet(Some(b));
  }

  /** Repeating allowed names changes nothing. */
  lemma GuardIgnoresDuplicates(tests: seq<TestRecord>, a: seq<string>)
    ensures Guard(tests, Some(a + a)) == Guard(tests, Some(a))
  {
    assert AllowedSet(Some(a + a)) == AllowedSet(Some(a));
  }

  /** A larger allow-list passes whatever a smaller one passes. */
  lemma GuardMonotoneInAllowList(tests: seq<TestRecord>, a: seq<string>, b: seq<string>)
    requires forall m :: m in a ==> m in b
    requires Guard(tests, Some(a)) == None
    ensures Guard(tests, Some(b)) == None
  {
    assert AllowedSet(Some(a)) <= AllowedSet(Some(b));
  }

  /** Dropping records from a list that passes leaves a list that passes. */
  lemma GuardMonotoneInTests(tests: seq<TestRecord>, sub: seq<TestRecord>, allowedNames: Option<seq<string>>)
    requires forall t :: t in sub ==> t in tests
    requires Guard(tests, allowedNames) == None
    ensures Guard(sub, allowedNames) == None
  {
    GuardRejectsIff(tests, allowedNames);
    GuardRejectsIff(sub, allowedNames);
  }

  /** The names of the records, in order (`tests.map(t => t.name)`). */
  function Names(tests: seq<TestRecord>): (ns: seq<string>)
    ensures |ns| == |tests|
    ensures forall i :: 0 <= i < |tests| ==> ns[i] == tests[i].name
  {
    seq(|tests|, i requires 0 <= i < |tests| => tests[i].name)
  }

  /** Allowing the records' own names, as the summary route does when no
      provenance is supplied, always passes. */
  lemma SelfAllowPasses(tests: seq<TestRecord>)
    ensures Guard(tests, Some(Names(tests))) == None
  {
    forall i | 0 <= i < |tests| ensures Lower(tests[i].name) in AllowedSet(Some(Names(tests))) {
      assert Names(tests)[i] in Names(tests);
    }
  }
}

=== FILE: js_number.dfy ===
/** The numeric reading of src/services/normalize.js: the first maximal match of
    `/[\d.]+/` or `/\d+/` in a segment, `parseFloat` of a run of digits and dots,
    and `parseInt` of a run of digits.  Numbers are exact: a `parseFloat` result
    is a `real` and NaN is `None`. */
module JsNumber {
  import opened Outcomes
  import opened AsciiText

  /** The two character classes the normaliser matches runs of. */
  datatype TokenClass = DigitsAndDots | DigitsOnly

  predicate InClass(c: char, cls: TokenClass) {
    match cls
    case DigitsAndDots => IsDigit(c) || c == '.'
    case DigitsOnly => IsDigit(c)
  }

  predicate AllInClass(s: string, cls: TokenClass) {
    forall i :: 0 <= i < |s| ==> InClass(s[i], cls)
  }

  predicate IsDigits(s: string) {
    forall i :: 0 <= i < |s| ==> IsDigit(s[i])
  }

  // ---------------------------------------------------------------------
  // First maximal run: `raw.match(/[\d.]+/)` and `raw.match(/\d+/)`

  /** The longest prefix of `s` made of characters of the class. */
  function LeadingRun(s: string, cls: TokenClass): (t: string)
    ensures |t| <= |s|
    ensures AllInClass(t, cls)
    ensures |s| > 0 && InClass(s[0], cls) ==> t != ""
  {
    if |s| > 0 && InClass(s[0], cls) then [s[0]] + LeadingRun(s[1..], cls) else ""
  }

  /** The first match of the expression `/[class]+/`, or `None` when
      `String.prototype.match` returns `null`. */
  function FirstRun(s: string, cls: TokenClass): (r: Option<string>)
    ensures r.Some? ==> r.value != "" && AllInClass(r.value, cls)
  {
    if |s| == 0 then None
    else if InClass(s[0], cls) then Some(LeadingRun(s, cls))
    else FirstRun(s[1..], cls)
  }

  lemma {:induction false} LeadingRunIsMaximal(s: string, cls: TokenClass)
    ensures AllInClass(LeadingRun(s, cls), cls)
    ensures OccursAt(LeadingRun(s, cls), s, 0)
    ensures |LeadingRun(s, cls)| < |s| ==> !InClass(s[|LeadingRun(s, cls)|], cls)
    decreases |s|
  {
    if |s| > 0 && InClass(s[0], cls) {
      var t := LeadingRun(s[1..], cls);
      LeadingRunIsMaximal(s[1..], cls);
      var r := [s[0]] + t;
      forall k | 0 <= k < |r| ensures s[k] == r[k] && InClass(r[k], cls) {
        if k > 0 {
          assert s[k] == s[1..][k - 1];
        }
      }
      if |r| < |s| {
        assert s[|r|] == s[1..][|t|];
      }
    }
  }

  /** The match is absent exactly when no character of `s` is in the class. */
  lemma {:induction false} FirstRunNone(s: string, cls: TokenClass)
    ensures FirstRun(s, cls).None? <==> forall i :: 0 <= i < |s| ==> !InClass(s[i], cls)
    decreases |s|
  {
    if |s| > 0 && !InClass(s[0], cls) {
      FirstRunNone(s[1..], cls);
      forall i | 0 < i < |s| ensures s[i] == s[1..][i - 1] {
      }
    }
  }

  /** A present match is a non-empty run of class characters found at index `i`;
      no class character precedes it and it cannot be extended to the right. */
  lemma {:induction false} FirstRunFound(s: string, cls: TokenClass) returns (i: nat)
    requires FirstRun(s, cls).Some?
    ensures var t := FirstRun(s, cls).value;
      && t != ""
      && AllInClass(t, cls)
      && OccursAt(t, s, i)
      && (forall k :: 0 <= k < i ==> !InClass(s[k], cls))
      && (i + |t| < |s| ==> !InClass(s[i + |t|], cls))
    decreases |s|
  {
    if InClass(s[0], cls) {
      LeadingRunIsMaximal(s, cls);
      i := 0;
    } else {
      var t := FirstRun(s, cls).value;
      var j := FirstRunFound(s[1..], cls);
      OccursAtTail(t, s, j);
      i := j + 1;
      forall k | 0 < k < i ensures !InClass(s[k], cls) {
        assert s[k] == s[1..][k - 1];
      }
      if i + |t| < |s| {
        assert s[i + |t|] == s[1..][j + |t|];
      }
    }
  }

  /** A run of the class is the first match of any text that reaches it through
      characters outside the class. */
  lemma {:induction false} FirstRunAfter(pre: string, t: string, post: string, cls: TokenClass)
    requires forall k :: 0 <= k < |pre| ==> !InClass(pre[k], cls)
    requires t != "" && AllInClass(t, cls)
    requires |post| > 0 ==> !InClass(post[0], cls)
    ensures FirstRun(pre + t + post, cls) == Some(t)
    decreases |pre|
  {
    var s := pre + t + post;
    if |pre| == 0 {
      assert s == t + post;
      LeadingRunOf(t, post, cls);
    } else {
      assert s[1..] == pre[1..] + t + post;
      FirstRunAfter(pre[1..], t, post, cls);
    }
  }

  lemma {:induction false} LeadingRunOf(t: string, post: string, cls: TokenClass)
    requires AllInClass(t, cls)
    requires |post| > 0 ==> !InClass(post[0], cls)
    ensures LeadingRun(t + post, cls) == t
    decreases |t|
  {
    if |t| == 0 {
      assert t + post == post;
    } else {
      assert (t + post)[1..] == t[1..] + post;
      LeadingRunOf(t[1..], post, cls);
      assert [t[0]] + t[1..] == t;
    }
  }

  // ---------------------------------------------------------------------
  // Decimal digits

  function DigitValue(c: char): nat
    requires IsDigit(c)
  {
    c as nat - '0' as nat
  }

  function Pow10(n: nat): (p: nat)
    ensures p >= 1
  {
    if n == 0 then 1 else 10 * Pow10(n - 1)
  }

  /** The number a string of decimal digits denotes (leading zeros allowed). */
  function DigitsValue(ds: string): (v: nat)
    requires IsDigits(ds)
    ensures v < Pow10(|ds|)
  {
    if |ds| == 0 then 0
    else DigitsValue(ds[..|ds| - 1]) * 10 + DigitValue(ds[|ds| - 1])
  }

  /** The shortest decimal numeral of `n`, as `String(n)` writes it. */
  function NatToDigits(n: nat): (ds: string)
    ensures ds != "" && IsDigits(ds)
  {
    var d := ['0' + (n % 10) as char];
    if n < 10 then d else NatToDigits(n / 10) + d
  }

  /** Reading back a numeral gives the number it was written from. */
  lemma {:induction false} DigitsRoundTrip(n: nat)
    ensures DigitsValue(NatToDigits(n)) == n
  {
    var ds := NatToDigits(n);
    if n >= 10 {
      DigitsRoundTrip(n / 10);
      assert ds[..|ds| - 1] == NatToDigits(n / 10);
    }
  }

  /** `parseInt` of a run of digits: the run read in base 10. */
  function ParseIntDigits(ds: string): (v: nat)
    requires ds != "" && IsDigits(ds)
    ensures v < Pow10(|ds|)
    ensures AllInClass(ds, DigitsAndDots) && ParseFloatRun(ds) == Some(v as real)
  {
    ParseFloatInteger(ds);
    DigitsValue(ds)
  }

  // ---------------------------------------------------------------------
  // parseFloat on a run of digits and dots

  /** The split of `s` into its leading digits and the rest. */
  function SpanDigits(s: string): (r: (string, string))
    ensures IsDigits(r.0) && r.0 + r.1 == s
    ensures |r.1| > 0 ==> !IsDigit(r.1[0])
  {
    if |s| > 0 && IsDigit(s[0]) then
      var (d, rest) := SpanDigits(s[1..]);
      assert [s[0]] + s[1..] == s;
      assert [s[0]] + d + rest == [s[0]] + (d + rest);
      ([s[0]] + d, rest)
    else ("", s)
  }

  /** The parts `parseFloat` reads from a run of digits and dots: the integer
      digits, and the fraction digits after the first dot. */
  function DecimalParts(tok: string): (r: (string, string))
    ensures IsDigits(r.0) && IsDigits(r.1)
  {
    var (ip, rest) := SpanDigits(tok);
    var fp := if |rest| > 0 && rest[0] == '.' then SpanDigits(rest[1..]).0 else "";
    (ip, fp)
  }

  /** The value of the numeral `ip.fp`. */
  function DecimalValue(ip: string, fp: string): real
    requires IsDigits(ip) && IsDigits(fp)
  {
    DigitsValue(ip) as real + DigitsValue(fp) as real / Pow10(|fp|) as real
  }

  /** `parseFloat` of a string of digits and dots: the longest prefix of the
      form digits, optionally a dot and digits, read as a decimal; NaN when
      that prefix holds no digit at all (".", ".." and the like). */
  function ParseFloatRun(tok: string): (r: Option<real>)
    requires AllInClass(tok, DigitsAndDots)
    ensures r.Some? ==>
      DigitsValue(DecimalParts(tok).0) as real <= r.value < DigitsValue(DecimalParts(tok).0) as real + 1.0
  {
    var (ip, fp) := DecimalParts(tok);
    if ip == "" && fp == "" then None
    else
      DecimalValueBounds(ip, fp);
      Some(DecimalValue(ip, fp))
  }

  /** The integer part of the value is the integer digits. */
  lemma DecimalValueBounds(ip: string, fp: string)
    requires IsDigits(ip) && IsDigits(fp)
    ensures DigitsValue(ip) as real <= DecimalValue(ip, fp) < DigitsValue(ip) as real + 1.0
  {
    FractionBelowOne(DigitsValue(fp) as real, Pow10(|fp|) as real);
  }

  lemma FractionBelowOne(f: real, p: real)
    requires 0.0 <= f < p
    ensures 0.0 <= f / p < 1.0
  {
  }

  lemma SpanDigitsOf(d: string, rest: string)
    requires IsDigits(d)
    requires |rest| > 0 ==> !IsDigit(rest[0])
    ensures SpanDigits(d + rest) == (d, rest)
  {
    var (a, b) := SpanDigits(d + rest);
    SpanDigitsUnique(d, rest, a, b);
  }

  lemma {:induction false} SpanDigitsUnique(d: string, rest: string, a: string, b: string)
    requires IsDigits(d) && IsDigits(a)
    requires |rest| > 0 ==> !IsDigit(rest[0])
    requires |b| > 0 ==> !IsDigit(b[0])
    requires d + rest == a + b
    ensures d == a && rest == b
    decreases |d|
  {
    if |d| == 0 {
      assert d + rest == rest;
      assert a + b == b;
    } else {
      assert (d + rest)[0] == d[0];
      if |a| > 0 {
        assert (a + b)[0] == a[0];
        assert (d + rest)[1..] == d[1..] + rest;
        assert (a + b)[1..] == a[1..] + b;
        SpanDigitsUnique(d[1..], rest, a[1..], b);
        assert d == [d[0]] + d[1..];
        assert a == [a[0]] + a[1..];
      }
    }
  }

  lemma DecimalTokenInClass(ip: string, fp: string, more: string)
    requires IsDigits(ip) && IsDigits(fp) && AllInClass(more, DigitsAndDots)
    ensures AllInClass(ip + "." + fp + more, DigitsAndDots)
  {
    var tok := ip + "." + fp + more;
    forall i | 0 <= i < |tok| ensures InClass(tok[i], DigitsAndDots) {
      if i < |ip| {
        assert tok[i] == ip[i];
      } else if i == |ip| {
      } else if i < |ip| + 1 + |fp| {
        assert tok[i] == fp[i - |ip| - 1];
      } else {
        assert tok[i] == more[i - |ip| - 1 - |fp|];
      }
    }
  }

  lemma DecimalPartsOf(ip: string, fp: string, more: string)
    requires IsDigits(ip) && IsDigits(fp)
    requires |more| > 0 ==> more[0] == '.'
    ensures DecimalParts(ip + "." + fp + more) == (ip, fp)
  {
    var tok := ip + "." + fp + more;
    assert tok == ip + ("." + fp + more);
    SpanDigitsOf(ip, "." + fp + more);
    assert ("." + fp + more)[1..] == fp + more;
    SpanDigitsOf(fp, more);
  }

  /** Round trip for the numerals `parseFloat` reads completely: the digits
      `ip`, a dot, the digits `fp`, optionally followed by a second dot and
      anything after it, which is ignored. */
  lemma ParseFloatDecimal(ip: string, fp: string, more: string)
    requires IsDigits(ip) && IsDigits(fp) && (ip != "" || fp != "")
    requires |more| > 0 ==> more[0] == '.'
    requires AllInClass(more, DigitsAndDots)
    ensures AllInClass(ip + "." + fp + more, DigitsAndDots)
    ensures ParseFloatRun(ip + "." + fp + more) == Some(DecimalValue(ip, fp))
  {
    DecimalTokenInClass(ip, fp, more);
    DecimalPartsOf(ip, fp, more);
  }

  /** A run of digits alone is read as the integer it denotes. */
  lemma ParseFloatInteger(ip: string)
    requires ip != "" && IsDigits(ip)
    ensures AllInClass(ip, DigitsAndDots)
    ensures ParseFloatRun(ip) == Some(DigitsValue(ip) as real)
  {
    assert ip + "" == ip;
    SpanDigitsOf(ip, "");
    assert DecimalParts(ip) == (ip, "");
    assert DecimalValue(ip, "") == DigitsValue(ip) as real;
  }

  /** NaN exactly for the runs that start with a dot not followed by a digit. */
  lemma ParseFloatNaN(tok: string)
    requires tok != "" && AllInClass(tok, DigitsAndDots)
    ensures ParseFloatRun(tok).None? <==> tok[0] == '.' && (|tok| == 1 || tok[1] == '.')
  {
    if tok[0] == '.' {
      assert tok == "" + tok;
      SpanDigitsOf("", tok);
      assert tok[1..] == "" + tok[1..];
      if |tok| == 1 || tok[1] == '.' {
        SpanDigitsOf("", tok[1..]);
      }
    } else {
      var (ip, rest) := SpanDigits(tok);
      assert tok[0] == (ip + rest)[0];
    }
  }

  /** Values read by `parseFloat` from such runs are never negative. */
  lemma ParseFloatNonNegative(tok: string)
    requires AllInClass(tok, DigitsAndDots)
    ensures ParseFloatRun(tok).Some? ==> ParseFloatRun(tok).value >= 0.0
  {
    var (ip, fp) := DecimalParts(tok);
    DecimalValueBounds(ip, fp);
  }
}

=== FILE: lab_types.dfy ===
/** The record shape shared by the two reference tables of the repository:
    the inline table of src/services/normalize.js and the exported catalog of
    src/utils/refRanges.js.  Both map an analyte name to a unit and a closed
    range `[low, high]`. */
module LabTypes {

  datatype RangeEntry = RangeEntry(unit: string, low: real, high: real)

  /** A usable range: non-negative bounds, the lower strictly below the upper. */
  predicate WellFormedEntry(e: RangeEntry) {
    0.0 <= e.low < e.high
  }

  /** The names of the ten analytes both tables are keyed by. */
  const AnalyteNames: set<string> := {
    "Hemoglobin", "RBC", "PCV", "WBC", "Platelet",
    "Neutrophils", "Lymphocytes", "Eosinophils", "Monocytes", "Basophils"
  }

  /** The ten names are pairwise different. */
  lemma TenAnalytes()
    ensures |AnalyteNames| == 10
  {
  }

  predicate WellFormedTable(t: map<string, RangeEntry>) {
    t.Keys == AnalyteNames && forall k :: k in t ==> WellFormedEntry(t[k])
  }
}

=== FILE: normalize.dfy ===
/** `normalizeTests` of src/services/normalize.js: every extracted segment is
    classified by the first analyte expression it matches, its number is read
    and rescaled, and a record with the unit, reference range and status of
    the inline table is emitted.  Segments that name no analyte, or whose value
    is NaN or zero, are dropped; a segment that names an analyte but holds no
    numeric token makes the JavaScript throw, which is `Failure` here. */
module Normalize {
  import opened Outcomes
  import opened AsciiText
  import opened JsNumber
  import opened LabTypes

  /** The table `normalizeTests` declares for itself and reads units and
      ranges from.  It is not the exported catalog of src/utils/refRanges.js. */
  const InlineRanges: map<string, RangeEntry> := map[
    "Hemoglobin" := RangeEntry("g/dL", 13.0, 17.0),
    "RBC" := RangeEntry("mill/cumm", 4.5, 5.5),
    "PCV" := RangeEntry("%", 40.0, 50.0),
    "WBC" := RangeEntry("/cumm", 4000.0, 11000.0),
    "Platelet" := RangeEntry("/cumm", 150000.0, 410000.0),
    "Neutrophils" := RangeEntry("%", 50.0, 62.0),
    "Lymphocytes" := RangeEntry("%", 20.0, 40.0),
    "Eosinophils" := RangeEntry("%", 0.0, 6.0),
    "Monocytes" := RangeEntry("%", 0.0, 10.0),
    "Basophils" := RangeEntry("%", 0.0, 2.0)
  ]

  lemma InlineRangesWellFormed()
    ensures WellFormedTable(InlineRanges)
  {
  }

  // ---------------------------------------------------------------------
  // Classification

  datatype Analyte =
    | Hemoglobin | RBC | PCV | WBC | Platelet
    | Neutrophils | Lymphocytes | Eosinophils | Monocytes | Basophils

  /** The name a record of the analyte carries, which is also its key in the
      inline table. */
  function Name(a: Analyte): (n: string)
    ensures n in AnalyteNames && n in InlineRanges
  {
    match a
    case Hemoglobin => "Hemoglobin"
    case RBC => "RBC"
    case PCV => "PCV"
    case WBC => "WBC"
    case Platelet => "Platelet"
    case Neutrophils => "Neutrophils"
    case Lymphocytes => "Lymphocytes"
    case Eosinophils => "Eosinophils"
    case Monocytes => "Monocytes"
    case Basophils => "Basophils"
  }

  /** The case-insensitive expression of the analyte's branch matches `raw`. */
  predicate Mentions(raw: string, a: Analyte) {
    match a
    case Hemoglobin => ContainsCI(raw, "hemoglobin")
    case RBC => ContainsCI(raw, "rbc") || ContainsCI(raw, "rec")
    case PCV => ContainsCI(raw, "pcv") || ContainsCI(raw, "packed cell volume")
    case WBC => ContainsCI(raw, "wbc")
    case Platelet => ContainsCI(raw, "platelet")
    case Neutrophils => ContainsCI(raw, "neutrophil")
    case Lymphocytes => ContainsCI(raw, "lymphocyte")
    case Eosinophils => ContainsCI(raw, "eosinophil")
    case Monocytes => ContainsCI(raw, "monocyte")
    case Basophils => ContainsCI(raw, "basophil")
  }

  /** The order in which the `if`/`else if` chain tries the analytes. */
  const DispatchOrder: seq<Analyte> :=
    [Hemoglobin, RBC, PCV, WBC, Platelet, Neutrophils, Lymphocytes, Eosinophils, Monocytes, Basophils]

  /** The position of the analyte's branch in the chain. */
  function Rank(a: Analyte): (k: nat)
    ensures k < |DispatchOrder| && DispatchOrder[k] == a
  {
    match a
    case Hemoglobin => 0
    case RBC => 1
    case PCV => 2
    case WBC => 3
    case Platelet => 4
    case Neutrophils => 5
    case Lymphocytes => 6
    case Eosinophils => 7
    case Monocytes => 8
    case Basophils => 9
  }

  /** The branch of the chain a segment enters: the first analyte in dispatch
      order whose expression matches, or none. */
  function Classify(raw: string): (r: Option<Analyte>)
    ensures r.Some? ==> Mentions(raw, r.value)
    ensures r.Some? ==> forall b :: Rank(b) < Rank(r.value) ==> !Mentions(raw, b)
    ensures r.None? <==> forall b :: !Mentions(raw, b)
  {
    if Mentions(raw, Hemoglobin) then Some(Hemoglobin)
    else if Mentions(raw, RBC) then Some(RBC)
    else if Mentions(raw, PCV) then Some(PCV)
    else if Mentions(raw, WBC) then Some(WBC)
    else if Mentions(raw, Platelet) then Some(Platelet)
    else if Mentions(raw, Neutrophils) then Some(Neutrophils)
    else if Mentions(raw, Lymphocytes) then Some(Lymphocytes)
    else if Mentions(raw, Eosinophils) then Some(Eosinophils)
    else if Mentions(raw, Monocytes) then Some(Monocytes)
    else if Mentions(raw, Basophils) then Some(Basophils)
    else None
  }

  // ---------------------------------------------------------------------
  // Reading the value

  datatype NormalizeError =
    /** `raw.match(...)` returned `null` and indexing it threw a TypeError. */
    | NoNumericToken(segment: string)

  /** Platelet counts are read with `parseInt` of the first `\d+`; every other
      analyte with `parseFloat` of the first `[\d.]+`. */
  function TokenClassOf(a: Analyte): TokenClass {
    if a == Platelet then DigitsOnly else DigitsAndDots
  }

  /** `cleanValue`: a haemoglobin above 100 or a red cell count above 10 is
      taken to have lost its decimal point and is divided by ten. */
  function CleanValue(name: string, v: real): (r: real)
    ensures v >= 0.0 ==> 0.0 <= r <= v
    ensures r == 0.0 <==> v == 0.0
    ensures r != v <==> v != 0.0 && ((name == "Hemoglobin" && v > 100.0) || (name == "RBC" && v > 10.0))
    ensures r != v ==> r * 10.0 == v
  {
    if name == "Hemoglobin" && v > 100.0 then v / 10.0
    else if name == "RBC" && v > 10.0 then v / 10.0
    else v
  }

  /** The value the analyte's branch reads from `raw`: `None` stands for NaN,
      and a missing numeric token is the error the branch throws. */
  function ReadValue(a: Analyte, raw: string): (r: Result<Option<real>, NormalizeError>)
    ensures r.Failure? <==> FirstRun(raw, TokenClassOf(a)).None?
    ensures r.Failure? ==> r.error == NoNumericToken(raw)
    ensures r.Success? && r.value.Some? ==> r.value.value >= 0.0
  {
    match FirstRun(raw, TokenClassOf(a))
    case None => Failure(NoNumericToken(raw))
    case Some(tok) =>
      if a == Platelet then
        Success(Some(ParseIntDigits(tok) as real))
      else
        ParseFloatNonNegative(tok);
        match ParseFloatRun(tok)
        case None => Success(None)
        case Some(v) =>
          Success(Some(if a == Hemoglobin || a == RBC then CleanValue(Name(a), v) else v))
  }

  // ---------------------------------------------------------------------
  // Status and records

  datatype Status = Low | Normal | High | Borderline

  /** The status strings of the records. */
  function StatusText(s: Status): string {
    match s
    case Low => "low"
    case Normal => "normal"
    case High => "high"
    case Borderline => "borderline"
  }

  /** The four status strings are distinct, so a record's string names its
      status: this is what lets the records carry `Status` rather than the
      string itself. */
  lemma StatusTextDistinct(a: Status, b: Status)
    ensures StatusText(a) == StatusText(b) <==> a == b
  {
  }

  /** The reading of a value against a closed range `[low, high]`. */
  predicate AgreesWithRange(s: Status, v: real, e: RangeEntry) {
    && (s == Low <==> v < e.low)
    && (s == High <==> v > e.high)
    && (s == Normal <==> e.low <= v <= e.high)
  }

  /** The status a record gets when no borderline flag was set. */
  function RangeStatus(v: real, e: RangeEntry): (s: Status)
    ensures s != Borderline
    ensures e.low <= e.high ==> AgreesWithRange(s, v, e)
  {
    if v < e.low then Low else if v > e.high then High else Normal
  }

  datatype RefRange = RefRange(low: real, high: real)

  datatype TestRecord = TestRecord(name: string, value: real, unit: string, status: Status, refRange: RefRange)

  /** What every emitted record satisfies: its name is a key of the inline
      table, its unit and range are copied from that entry, its value is
      positive, and its status is either the platelet borderline flag or the
      reading of the value against the range. */
  predicate ValidRecord(t: TestRecord) {
    && t.name in InlineRanges
    && t.unit == InlineRanges[t.name].unit
    && t.refRange == RefRange(InlineRanges[t.name].low, InlineRanges[t.name].high)
    && t.value > 0.0
    && (t.status == Borderline ==> t.name == "Platelet")
    && (t.status != Borderline ==> AgreesWithRange(t.status, t.value, InlineRanges[t.name]))
  }

  /** The record pushed for a value of the analyte; `flagged` is the platelet
      borderline flag, which takes the place of the range reading. */
  function MakeRecord(a: Analyte, v: real, flagged: bool): (t: TestRecord)
    requires v > 0.0
    requires flagged ==> a == Platelet
    ensures ValidRecord(t) && t.name == Name(a) && t.value == v
    ensures t.status == Borderline <==> flagged
  {
    var e := InlineRanges[Name(a)];
    InlineRangesWellFormed();
    var status := if flagged then Borderline else RangeStatus(v, e);
    TestRecord(Name(a), v, e.unit, status, RefRange(e.low, e.high))
  }

  /** One pass of the loop body: `Success(None)` is the `continue`. */
  function NormalizeSegment(raw: string): (r: Result<Option<TestRecord>, NormalizeError>)
    ensures r.Failure? <==> Classify(raw).Some? && FirstRun(raw, TokenClassOf(Classify(raw).value)).None?
    ensures r.Success? && r.value.Some? ==>
      && Classify(raw).Some?
      && r.value.value.name == Name(Classify(raw).value)
      && ReadValue(Classify(raw).value, raw) == Success(Some(r.value.value.value))
      && ValidRecord(r.value.value)
      && (r.value.value.status == Borderline <==> Classify(raw) == Some(Platelet) && ContainsCI(raw, "borderline"))
  {
    match Classify(raw)
    case None => Success(None)
    case Some(a) =>
      match ReadValue(a, raw)
      case Failure(e) => Failure(e)
      case Success(v) =>
        if v.None? || v.value == 0.0 then Success(None)
        else Success(Some(MakeRecord(a, v.value, a == Platelet && ContainsCI(raw, "borderline"))))
  }

  /** One iteration of the loop in front of the iterations that follow it:
      a throwing segment ends the run, a kept record goes in front. */
  function Prepend(o: Result<Option<TestRecord>, NormalizeError>, rest: Result<seq<TestRecord>, NormalizeError>): (r: Result<seq<TestRecord>, NormalizeError>)
    ensures o.Failure? ==> r == Failure(o.error)
    ensures o.Success? && rest.Failure? ==> r == Failure(rest.error)
    ensures o.Success? && rest.Success? ==> r.Success? && |rest.value| <= |r.value| <= |rest.value| + 1
    ensures o.Success? && rest.Success? ==> (|r.value| == |rest.value| + 1 <==> o.value.Some?)
    ensures o.Success? && rest.Success? && o.value.Some? ==> r.value[0] == o.value.value
    ensures o.Success? && rest.Success? && o.value.Some? ==> r.value[1..] == rest.value
    ensures o.Success? && rest.Success? && o.value.None? ==> r.value == rest.value
  {
    match o
    case Failure(e) => Failure(e)
    case Success(x) =>
      match rest
      case Failure(e) => Failure(e)
      case Success(ys) => Success((if x.Some? then [x.value] else []) + ys)
  }

  /** The loop over the segments: records in segment order, and the first
      segment that throws ends the run. */
  function CollectRecords(raws: seq<string>): (r: Result<seq<TestRecord>, NormalizeError>)
    ensures r.Success? ==> |r.value| <= |raws|
    ensures r.Success? ==> forall k :: 0 <= k < |r.value| ==> ValidRecord(r.value[k])
  {
    if |raws| == 0 then Success([])
    else Prepend(NormalizeSegment(raws[0]), CollectRecords(raws[1..]))
  }

  /** The object `normalizeTests` returns. */
  datatype Normalized = Normalized(tests: seq<TestRecord>, confidence: real)

  function NormalizeTests(raws: seq<string>): (r: Result<Normalized, NormalizeError>)
    ensures r.Success? ==> |r.value.tests| <= |raws|
    ensures r.Success? ==> forall k :: 0 <= k < |r.value.tests| ==> ValidRecord(r.value.tests[k])
    ensures r.Success? ==> (r.value.confidence == 0.85 <==> |r.value.tests| > 0)
    ensures r.Success? ==> (r.value.confidence == 0.0 <==> |r.value.tests| == 0)
  {
    match CollectRecords(raws)
    case Failure(e) => Failure(e)
    case Success(ts) => Success(Normalized(ts, if |ts| > 0 then 0.85 else 0.0))
  }
}

=== FILE: normalize_examples.dfy ===
/** Segments worked through `normalizeTests` by hand: the dispatch order, the
    two ways of reading a number, `cleanValue` applied once, the borderline
    flag, and the dropped and the throwing segment.  Each example is assembled
    from small facts about its text, so that no single proof has to unfold the
    normaliser on a literal string. */
module NormalizeExamples {
  import opened Outcomes
  import opened AsciiText
  import opened JsNumber
  import opened Normalize
  import opened NormalizeLemmas

  // ---------------------------------------------------------------------
  // Assembling a segment's outcome from its parts

  /** A segment is classified by an analyte when it matches the analyte's
      expression and avoids a letter of every expression tried before it. */
  lemma ClassifiedRbc(raw: string)
    requires Avoids(raw, {'h'}) && ContainsCI(raw, "rec")
    ensures Classify(raw) == Some(RBC)
  {
    NotContainsCIChar(raw, "hemoglobin", 0);
  }

  lemma ClassifiedWbc(raw: string)
    requires Avoids(raw, {'h', 'r', 'p'}) && ContainsCI(raw, "wbc")
    ensures Classify(raw) == Some(WBC)
  {
    NotContainsCIChar(raw, "hemoglobin", 0);
    NotContainsCIChar(raw, "rbc", 0);
    NotContainsCIChar(raw, "rec", 0);
    NotContainsCIChar(raw, "pcv", 0);
    NotContainsCIChar(raw, "packed cell volume", 0);
  }

  lemma ClassifiedPlatelet(raw: string)
    requires Avoids(raw, {'h', 'c', 'w'}) && ContainsCI(raw, "platelet")
    ensures Classify(raw) == Some(Platelet)
  {
    NotContainsCIChar(raw, "hemoglobin", 0);
    NotContainsCIChar(raw, "rbc", 2);
    NotContainsCIChar(raw, "rec", 2);
    NotContainsCIChar(raw, "pcv", 1);
    NotContainsCIChar(raw, "packed cell volume", 2);
    NotContainsCIChar(raw, "wbc", 0);
  }

  lemma KeptUnflagged(raw: string, a: Analyte, v: real)
    requires Classify(raw) == Some(a) && ReadValue(a, raw) == Success(Some(v)) && v > 0.0
    requires a != Platelet
    ensures NormalizeSegment(raw) == Success(Some(MakeRecord(a, v, false)))
  {
  }

  lemma KeptPlatelet(raw: string, v: real, flagged: bool)
    requires Classify(raw) == Some(Platelet) && ReadValue(Platelet, raw) == Success(Some(v)) && v > 0.0
    requires flagged == ContainsCI(raw, "borderline")
    ensures NormalizeSegment(raw) == Success(Some(MakeRecord(Platelet, v, flagged)))
  {
  }

  lemma Thrown(raw: string, a: Analyte)
    requires Classify(raw) == Some(a) && ReadValue(a, raw).Failure?
    ensures NormalizeSegment(raw) == Failure(ReadValue(a, raw).error)
  {
  }

  /** Two segments, each kept or dropped, in one run. */
  lemma CollectPair(x: string, y: string, ox: Option<TestRecord>, oy: Option<TestRecord>)
    requires NormalizeSegment(x) == Success(ox) && NormalizeSegment(y) == Success(oy)
    ensures CollectRecords([x, y]) == Success((if ox.Some? then [ox.value] else []) + (if oy.Some? then [oy.value] else []))
  {
    CollectSingle(x);
    CollectSingle(y);
    CollectAppend([x], [y]);
    assert [x] + [y] == [x, y];
  }

  lemma NormalizePair(x: string, y: string, rx: TestRecord, ry: TestRecord)
    requires NormalizeSegment(x) == Success(Some(rx)) && NormalizeSegment(y) == Success(Some(ry))
    ensures NormalizeTests([x, y]) == Success(Normalized([rx, ry], 0.85))
  {
    CollectPair(x, y, Some(rx), Some(ry));
    assert [rx] + [ry] == [rx, ry];
  }

  /** The value of a numeral written the way `String(n)` writes it. */
  lemma NumeralValue(ds: string, n: nat)
    requires NatToDigits(n) == ds
    ensures IsDigits(ds) && DigitsValue(ds) == n
  {
    DigitsRoundTrip(n);
  }

  // ---------------------------------------------------------------------
  // parseFloat reads the longest decimal prefix of the run

  /** "12.5.3" reads as 12.5: the second dot ends the number. */
  lemma TwelvePointFive()
    ensures IsDigits("12") && IsDigits("5") && DecimalValue("12", "5") == 12.5
  {
    NumeralValue("12", 12);
    NumeralValue("5", 5);
  }

  lemma SecondDotText()
    ensures "12" + "." + "5" + ".3" == "12.5.3"
  {
  }

  lemma ParseFloatStopsAtSecondDot()
    ensures AllInClass("12.5.3", DigitsAndDots) && ParseFloatRun("12.5.3") == Some(12.5)
  {
    TwelvePointFive();
    SecondDotText();
    ParseFloatDecimal("12", "5", ".3");
  }

  lemma ParseTwelvePointFive()
    ensures AllInClass("12.5", DigitsAndDots) && ParseFloatRun("12.5") == Some(12.5)
  {
    TwelvePointFive();
    assert "12" + "." + "5" + "" == "12.5";
    ParseFloatDecimal("12", "5", "");
  }

  /** A run made of a lone dot is NaN. */
  lemma ParseLoneDot()
    ensures AllInClass(".", DigitsAndDots) && ParseFloatRun(".") == None
  {
    ParseFloatNaN(".");
  }

  // ---------------------------------------------------------------------
  // "Hemoglobin 12.5 g/dL": low against the inline range 13-17

  lemma HemoglobinClassified()
    ensures Classify("Hemoglobin 12.5 g/dL") == Some(Hemoglobin)
  {
    ContainsCIAt("Hemoglobin 12.5 g/dL", "hemoglobin", 0);
  }

  lemma HemoglobinToken()
    ensures FirstRun("Hemoglobin 12.5 g/dL", DigitsAndDots) == Some("12.5")
  {
    assert "Hemoglobin 12.5 g/dL" == "Hemoglobin " + "12.5" + " g/dL";
    FirstRunAfter("Hemoglobin ", "12.5", " g/dL", DigitsAndDots);
  }

  lemma HemoglobinValue()
    ensures ReadValue(Hemoglobin, "Hemoglobin 12.5 g/dL") == Success(Some(12.5))
  {
    HemoglobinToken();
    ParseTwelvePointFive();
  }

  lemma HemoglobinLowRecord()
    ensures MakeRecord(Hemoglobin, 12.5, false) == TestRecord("Hemoglobin", 12.5, "g/dL", Low, RefRange(13.0, 17.0))
  {
  }

  /** A haemoglobin of 12.5 is low against the inline 13-17, although it lies
      inside the catalog's 12-15. */
  lemma HemoglobinLow()
    ensures NormalizeSegment("Hemoglobin 12.5 g/dL")
      == Success(Some(TestRecord("Hemoglobin", 12.5, "g/dL", Low, RefRange(13.0, 17.0))))
  {
    HemoglobinClassified();
    HemoglobinValue();
    HemoglobinLowRecord();
    KeptUnflagged("Hemoglobin 12.5 g/dL", Hemoglobin, 12.5);
  }

  // ---------------------------------------------------------------------
  // "Hemoglobin 1250 g/dL": cleanValue divides once

  lemma RescaledClassified()
    ensures Classify("Hemoglobin 1250 g/dL") == Some(Hemoglobin)
  {
    ContainsCIAt("Hemoglobin 1250 g/dL", "hemoglobin", 0);
  }

  lemma RescaledToken()
    ensures FirstRun("Hemoglobin 1250 g/dL", DigitsAndDots) == Some("1250")
  {
    assert "Hemoglobin 1250 g/dL" == "Hemoglobin " + "1250" + " g/dL";
    FirstRunAfter("Hemoglobin ", "1250", " g/dL", DigitsAndDots);
  }

  lemma ParseTwelveFifty()
    ensures AllInClass("1250", DigitsAndDots) && ParseFloatRun("1250") == Some(1250.0)
  {
    assert NatToDigits(1250) == "1250";
    NumeralValue("1250", 1250);
    ParseFloatInteger("1250");
  }

  lemma RescaledValue()
    ensures ReadValue(Hemoglobin, "Hemoglobin 1250 g/dL") == Success(Some(125.0))
  {
    RescaledToken();
    ParseTwelveFifty();
  }

  lemma RescaledRecord()
    ensures MakeRecord(Hemoglobin, 125.0, false) == TestRecord("Hemoglobin", 125.0, "g/dL", High, RefRange(13.0, 17.0))
  {
  }

  /** 1250 becomes 125 and stays 125, although 125 is itself above the
      threshold a second `cleanValue` would divide at. */
  lemma HemoglobinRescaledOnce()
    ensures NormalizeSegment("Hemoglobin 1250 g/dL")
      == Success(Some(TestRecord("Hemoglobin", 125.0, "g/dL", High, RefRange(13.0, 17.0))))
    ensures CleanValue("Hemoglobin", 125.0) == 12.5
  {
    RescaledClassified();
    RescaledValue();
    RescaledRecord();
    KeptUnflagged("Hemoglobin 1250 g/dL", Hemoglobin, 125.0);
  }

  // ---------------------------------------------------------------------
  // "WBC 15000 /uL": high, and the unit comes from the table

  lemma WbcClassified()
    ensures Classify("WBC 15000 /uL") == Some(WBC)
  {
    ContainsCIAt("WBC 15000 /uL", "wbc", 0);
    ClassifiedWbc("WBC 15000 /uL");
  }

  lemma WbcToken()
    ensures FirstRun("WBC 15000 /uL", DigitsAndDots) == Some("15000")
  {
    assert "WBC 15000 /uL" == "WBC " + "15000" + " /uL";
    FirstRunAfter("WBC ", "15000", " /uL", DigitsAndDots);
  }

  lemma ParseFifteenThousand()
    ensures AllInClass("15000", DigitsAndDots) && ParseFloatRun("15000") == Some(15000.0)
  {
    assert NatToDigits(15000) == "15000";
    NumeralValue("15000", 15000);
    ParseFloatInteger("15000");
  }

  lemma WbcValue()
    ensures ReadValue(WBC, "WBC 15000 /uL") == Success(Some(15000.0))
  {
    WbcToken();
    ParseFifteenThousand();
  }

  lemma WbcRecord()
    ensures MakeRecord(WBC, 15000.0, false) == TestRecord("WBC", 15000.0, "/cumm", High, RefRange(4000.0, 11000.0))
  {
  }

  /** The record's unit is the table's "/cumm", not the "/uL" of the text. */
  lemma WbcHigh()
    ensures NormalizeSegment("WBC 15000 /uL")
      == Success(Some(TestRecord("WBC", 15000.0, "/cumm", High, RefRange(4000.0, 11000.0))))
  {
    WbcClassified();
    WbcValue();
    WbcRecord();
    KeptUnflagged("WBC 15000 /uL", WBC, 15000.0);
  }

  // ---------------------------------------------------------------------
  // "Platelet 140000 (Borderline)": the flag overrides the range reading

  lemma PlateletClassified()
    ensures Classify("Platelet 140000 (Borderline)") == Some(Platelet)
  {
    ContainsCIAt("Platelet 140000 (Borderline)", "platelet", 0);
    ClassifiedPlatelet("Platelet 140000 (Borderline)");
  }

  lemma PlateletFlagged()
    ensures ContainsCI("Platelet 140000 (Borderline)", "borderline")
  {
    ContainsCIAt("Platelet 140000 (Borderline)", "borderline", 17);
  }

  lemma PlateletToken()
    ensures FirstRun("Platelet 140000 (Borderline)", DigitsOnly) == Some("140000")
  {
    assert "Platelet 140000 (Borderline)" == "Platelet " + "140000" + " (Borderline)";
    FirstRunAfter("Platelet ", "140000", " (Borderline)", DigitsOnly);
  }

  lemma PlateletCount()
    ensures IsDigits("140000") && ParseIntDigits("140000") == 140000
  {
    assert NatToDigits(140000) == "140000";
    NumeralValue("140000", 140000);
  }

  lemma PlateletValue()
    ensures ReadValue(Platelet, "Platelet 140000 (Borderline)") == Success(Some(140000.0))
  {
    PlateletToken();
    PlateletCount();
  }

  lemma PlateletRecord()
    ensures MakeRecord(Platelet, 140000.0, true)
      == TestRecord("Platelet", 140000.0, "/cumm", Borderline, RefRange(150000.0, 410000.0))
    ensures RangeStatus(140000.0, InlineRanges["Platelet"]) == Low
  {
  }

  /** 140000 is below the platelet range, but the flag in the text wins. */
  lemma PlateletBorderline()
    ensures NormalizeSegment("Platelet 140000 (Borderline)")
      == Success(Some(TestRecord("Platelet", 140000.0, "/cumm", Borderline, RefRange(150000.0, 410000.0))))
    ensures RangeStatus(140000.0, InlineRanges["Platelet"]) == Low
  {
    PlateletClassified();
    PlateletFlagged();
    PlateletValue();
    PlateletRecord();
    KeptPlatelet("Platelet 140000 (Borderline)", 140000.0, true);
  }

  // ---------------------------------------------------------------------
  // "Bilirubin direct 0.3 mg/dL": "direct" holds "rec", so this is a red cell count

  lemma DirectClassified()
    ensures Classify("Bilirubin direct 0.3 mg/dL") == Some(RBC)
  {
    ContainsCIAt("Bilirubin direct 0.3 mg/dL", "rec", 12);
    ClassifiedRbc("Bilirubin direct 0.3 mg/dL");
  }

  lemma DirectToken()
    ensures FirstRun("Bilirubin direct 0.3 mg/dL", DigitsAndDots) == Some("0.3")
  {
    assert "Bilirubin direct 0.3 mg/dL" == "Bilirubin direct " + "0.3" + " mg/dL";
    FirstRunAfter("Bilirubin direct ", "0.3", " mg/dL", DigitsAndDots);
  }

  lemma ParseZeroPointThree()
    ensures AllInClass("0.3", DigitsAndDots) && ParseFloatRun("0.3") == Some(0.3)
  {
    NumeralValue("0", 0);
    NumeralValue("3", 3);
    assert "0" + "." + "3" + "" == "0.3";
    ParseFloatDecimal("0", "3", "");
  }

  lemma DirectValue()
    ensures ReadValue(RBC, "Bilirubin direct 0.3 mg/dL") == Success(Some(0.3))
  {
    DirectToken();
    ParseZeroPointThree();
  }

  lemma DirectRecord()
    ensures MakeRecord(RBC, 0.3, false) == TestRecord("RBC", 0.3, "mill/cumm", Low, RefRange(4.5, 5.5))
  {
  }

  /** A bilirubin line becomes a low red cell count: the expression `rec`
      matches inside "direct" and nothing earlier in the chain matches. */
  lemma DirectReadsAsRbc()
    ensures NormalizeSegment("Bilirubin direct 0.3 mg/dL")
      == Success(Some(TestRecord("RBC", 0.3, "mill/cumm", Low, RefRange(4.5, 5.5))))
  {
    DirectClassified();
    DirectValue();
    DirectRecord();
    KeptUnflagged("Bilirubin direct 0.3 mg/dL", RBC, 0.3);
  }

  // ---------------------------------------------------------------------
  // "Platelet 1.5": parseInt stops at the dot

  lemma SmallPlateletClassified()
    ensures Classify("Platelet 1.5") == Some(Platelet)
  {
    ContainsCIAt("Platelet 1.5", "platelet", 0);
    ClassifiedPlatelet("Platelet 1.5");
  }

  lemma SmallPlateletUnflagged()
    ensures !ContainsCI("Platelet 1.5", "borderline")
  {
    NotContainsCIChar("Platelet 1.5", "borderline", 0);
  }

  lemma SmallPlateletToken()
    ensures FirstRun("Platelet 1.5", DigitsOnly) == Some("1")
  {
    assert "Platelet 1.5" == "Platelet " + "1" + ".5";
    FirstRunAfter("Platelet ", "1", ".5", DigitsOnly);
  }

  lemma ParseIntOne()
    ensures IsDigits("1") && ParseIntDigits("1") == 1
  {
    NumeralValue("1", 1);
  }

  lemma SmallPlateletValue()
    ensures ReadValue(Platelet, "Platelet 1.5") == Success(Some(1.0))
  {
    SmallPlateletToken();
    ParseIntOne();
  }

  lemma SmallPlateletRecord()
    ensures MakeRecord(Platelet, 1.0, false) == TestRecord("Platelet", 1.0, "/cumm", Low, RefRange(150000.0, 410000.0))
  {
  }

  /** The platelet branch reads "1.5" as 1, where `parseFloat` would give 1.5. */
  lemma PlateletReadsInteger()
    ensures NormalizeSegment("Platelet 1.5")
      == Success(Some(TestRecord("Platelet", 1.0, "/cumm", Low, RefRange(150000.0, 410000.0))))
  {
    SmallPlateletClassified();
    SmallPlateletUnflagged();
    SmallPlateletValue();
    SmallPlateletRecord();
    KeptPlatelet("Platelet 1.5", 1.0, false);
  }

  // ---------------------------------------------------------------------
  // Segments that throw or are dropped

  lemma PendingClassified()
    ensures Classify("Platelet: pending") == Some(Platelet)
  {
    ContainsCIAt("Platelet: pending", "platelet", 0);
    ClassifiedPlatelet("Platelet: pending");
  }

  lemma PendingDigitFree()
    ensures forall i :: 0 <= i < |"Platelet: pending"| ==> !InClass("Platelet: pending"[i], DigitsOnly)
  {
  }

  lemma PendingNoRun()
    ensures FirstRun("Platelet: pending", DigitsOnly) == None
  {
    PendingDigitFree();
    FirstRunNone("Platelet: pending", DigitsOnly);
  }

  lemma PendingHasNoDigit()
    ensures ReadValue(Platelet, "Platelet: pending") == Failure(NoNumericToken("Platelet: pending"))
  {
    PendingNoRun();
  }

  /** A platelet line without a digit makes `raw.match(/\d+/)[0]` throw. */
  lemma PlateletWithoutDigitsThrows()
    ensures NormalizeSegment("Platelet: pending") == Failure(NoNumericToken("Platelet: pending"))
  {
    PendingClassified();
    PendingHasNoDigit();
    Thrown("Platelet: pending", Platelet);
  }

  lemma DotClassified()
    ensures Classify("Hemoglobin . g/dL") == Some(Hemoglobin)
  {
    ContainsCIAt("Hemoglobin . g/dL", "hemoglobin", 0);
  }

  lemma DotValue()
    ensures ReadValue(Hemoglobin, "Hemoglobin . g/dL") == Success(None)
  {
    assert "Hemoglobin . g/dL" == "Hemoglobin " + "." + " g/dL";
    FirstRunAfter("Hemoglobin ", ".", " g/dL", DigitsAndDots);
    ParseLoneDot();
  }

  /** A lone dot is matched by `[\d.]+`, reads as NaN, and the segment is skipped. */
  lemma NaNIsDropped()
    ensures NormalizeSegment("Hemoglobin . g/dL") == Success(None)
  {
    DotClassified();
    DotValue();
  }

  lemma ZeroClassified()
    ensures Classify("WBC 0 /uL") == Some(WBC)
  {
    ContainsCIAt("WBC 0 /uL", "wbc", 0);
    ClassifiedWbc("WBC 0 /uL");
  }

  lemma ZeroToken()
    ensures FirstRun("WBC 0 /uL", DigitsAndDots) == Some("0")
  {
    assert "WBC 0 /uL" == "WBC " + "0" + " /uL";
    FirstRunAfter("WBC ", "0", " /uL", DigitsAndDots);
  }

  lemma ParseZero()
    ensures AllInClass("0", DigitsAndDots) && ParseFloatRun("0") == Some(0.0)
  {
    assert DigitsValue("0") == 0;
    ParseFloatInteger("0");
  }

  lemma ZeroValue()
    ensures ReadValue(WBC, "WBC 0 /uL") == Success(Some(0.0))
  {
    ZeroToken();
    ParseZero();
  }

  /** A value of zero is falsy, and the segment is skipped. */
  lemma ZeroIsDropped()
    ensures NormalizeSegment("WBC 0 /uL") == Success(None)
  {
    ZeroClassified();
    ZeroValue();
  }

  // ---------------------------------------------------------------------
  // Whole runs

  /** Two kept segments give two records in order and the confidence 0.85. */
  lemma TwoRecords()
    ensures NormalizeTests(["Hemoglobin 12.5 g/dL", "WBC 15000 /uL"]) == Success(Normalized([
      TestRecord("Hemoglobin", 12.5, "g/dL", Low, RefRange(13.0, 17.0)),
      TestRecord("WBC", 15000.0, "/cumm", High, RefRange(4000.0, 11000.0))], 0.85))
  {
    HemoglobinLow();
    WbcHigh();
    NormalizePair("Hemoglobin 12.5 g/dL", "WBC 15000 /uL",
      TestRecord("Hemoglobin", 12.5, "g/dL", Low, RefRange(13.0, 17.0)),
      TestRecord("WBC", 15000.0, "/cumm", High, RefRange(4000.0, 11000.0)));
  }

  lemma NothingCollected()
    ensures CollectRecords(["Hemoglobin . g/dL", "WBC 0 /uL"]) == Success([])
  {
    NaNIsDropped();
    ZeroIsDropped();
    CollectPair("Hemoglobin . g/dL", "WBC 0 /uL", None, None);
  }

  /** Only dropped segments give no records and the confidence 0. */
  lemma NothingKept()
    ensures NormalizeTests(["Hemoglobin . g/dL", "WBC 0 /uL"]) == Success(Normalized([], 0.0))
  {
    NothingCollected();
  }

  /** A throwing segment after a kept one still makes the whole run throw. */
  lemma LaterFailureWins()
    ensures NormalizeTests(["Hemoglobin 12.5 g/dL", "Platelet: pending"]) == Failure(NoNumericToken("Platelet: pending"))
  {
    var x, y := "Hemoglobin 12.5 g/dL", "Platelet: pending";
    HemoglobinLow();
    PlateletWithoutDigitsThrows();
    CollectSingle(x);
    CollectSingle(y);
    CollectAppend([x], [y]);
    assert [x] + [y] == [x, y];
  }
}

=== FILE: normalize_lemmas.dfy ===
/** How `normalizeTests` treats a list of segments as a whole: each segment is
    handled on its own, records keep the order of their segments, and the run
    throws exactly when some segment throws, with that segment's error. */
module NormalizeLemmas {
  import opened Outcomes
  import opened AsciiText
  import opened JsNumber
  import opened Normalize

  /** Running the loop over two lists one after the other. */
  function Sequenced(ra: Result<seq<TestRecord>, NormalizeError>, rb: Result<seq<TestRecord>, NormalizeError>): Result<seq<TestRecord>, NormalizeError> {
    match ra
    case Failure(e) => Failure(e)
    case Success(x) =>
      match rb
      case Failure(e) => Failure(e)
      case Success(y) => Success(x + y)
  }

  lemma SequencedPrepend(o: Result<Option<TestRecord>, NormalizeError>, x: Result<seq<TestRecord>, NormalizeError>, y: Result<seq<TestRecord>, NormalizeError>)
    ensures Sequenced(Prepend(o, x), y) == Prepend(o, Sequenced(x, y))
  {
    if o.Success? && x.Success? && y.Success? {
      var h := if o.value.Some? then [o.value.value] else [];
      assert h + x.value + y.value == h + (x.value + y.value);
    }
  }

  /** The records of `a + b` are those of `a` followed by those of `b`, and a
      failure in `a` is reported before anything in `b` is looked at. */
  lemma {:induction false} CollectAppend(a: seq<string>, b: seq<string>)
    ensures CollectRecords(a + b) == Sequenced(CollectRecords(a), CollectRecords(b))
    decreases |a|
  {
    if |a| == 0 {
      assert a + b == b;
      match CollectRecords(b)
      case Success(ys) => assert [] + ys == ys;
      case Failure(_) =>
    } else {
      var o := NormalizeSegment(a[0]);
      assert (a + b)[0] == a[0];
      assert (a + b)[1..] == a[1..] + b;
      CollectAppend(a[1..], b);
      SequencedPrepend(o, CollectRecords(a[1..]), CollectRecords(b));
    }
  }

  /** A single segment contributes its own record, or nothing. */
  lemma CollectSingle(x: string)
    ensures CollectRecords([x]) == Prepend(NormalizeSegment(x), Success([]))
    ensures NormalizeSegment(x).Failure? ==> CollectRecords([x]) == Failure(NormalizeSegment(x).error)
    ensures NormalizeSegment(x) == Success(None) ==> CollectRecords([x]) == Success([])
    ensures NormalizeSegment(x).Success? && NormalizeSegment(x).value.Some? ==>
      CollectRecords([x]) == Success([NormalizeSegment(x).value.value])
  {
    assert [x][1..] == [];
    var o := NormalizeSegment(x);
    if o.Success? && o.value.Some? {
      assert [o.value.value] + [] == [o.value.value];
    }
  }

  /** A dropped segment leaves the result of the rest unchanged. */
  lemma DroppedSegment(x: string, rest: seq<string>)
    requires NormalizeSegment(x) == Success(None)
    ensures CollectRecords([x] + rest) == CollectRecords(rest)
  {
    CollectAppend([x], rest);
    CollectSingle(x);
    match CollectRecords(rest)
    case Success(ys) => assert [] + ys == ys;
    case Failure(_) =>
  }

  /** The outcome of every segment, in order. */
  function SegmentOutcomes(raws: seq<string>): (os: seq<Result<Option<TestRecord>, NormalizeError>>)
    ensures |os| == |raws|
  {
    if |raws| == 0 then [] else [NormalizeSegment(raws[0])] + SegmentOutcomes(raws[1..])
  }

  lemma {:induction false} SegmentOutcomesAt(raws: seq<string>, k: int)
    requires 0 <= k < |raws|
    ensures SegmentOutcomes(raws)[k] == NormalizeSegment(raws[k])
    decreases k
  {
    if k > 0 {
      SegmentOutcomesAt(raws[1..], k - 1);
    }
  }

  /** The loop run over outcomes computed beforehand. */
  function Gather(os: seq<Result<Option<TestRecord>, NormalizeError>>): Result<seq<TestRecord>, NormalizeError> {
    if |os| == 0 then Success([]) else Prepend(os[0], Gather(os[1..]))
  }

  /** Handling the segments one by one is handling their outcomes one by one. */
  lemma {:induction false} CollectIsGather(raws: seq<string>)
    ensures CollectRecords(raws) == Gather(SegmentOutcomes(raws))
    decreases |raws|
  {
    if |raws| > 0 {
      CollectIsGather(raws[1..]);
      var os := SegmentOutcomes(raws);
      assert os[1..] == SegmentOutcomes(raws[1..]);
    }
  }

  lemma {:induction false} GatherFailsIff(os: seq<Result<Option<TestRecord>, NormalizeError>>)
    ensures Gather(os).Failure? <==> exists k :: 0 <= k < |os| && os[k].Failure?
    decreases |os|
  {
    if |os| > 0 {
      GatherFailsIff(os[1..]);
      if exists k :: 0 <= k < |os| && os[k].Failure? {
        var k :| 0 <= k < |os| && os[k].Failure?;
        if k > 0 {
          assert os[1..][k - 1] == os[k];
        }
      }
      if exists k :: 0 <= k < |os[1..]| && os[1..][k].Failure? {
        var k :| 0 <= k < |os[1..]| && os[1..][k].Failure?;
        assert os[k + 1] == os[1..][k];
      }
    }
  }

  lemma {:induction false} GatherFirstFailure(os: seq<Result<Option<TestRecord>, NormalizeError>>) returns (k: nat)
    requires Gather(os).Failure?
    ensures k < |os| && os[k] == Failure(Gather(os).error)
    ensures forall j :: 0 <= j < k ==> os[j].Success?
    decreases |os|
  {
    if os[0].Failure? {
      k := 0;
    } else {
      var k' := GatherFirstFailure(os[1..]);
      k := k' + 1;
    }
  }

  /** `normalizeTests` throws exactly when some segment throws. */
  lemma NormalizeFailsIff(raws: seq<string>)
    ensures NormalizeTests(raws).Failure? <==> exists k :: 0 <= k < |raws| && NormalizeSegment(raws[k]).Failure?
  {
    var os := SegmentOutcomes(raws);
    CollectIsGather(raws);
    GatherFailsIff(os);
    forall k | 0 <= k < |raws| ensures os[k] == NormalizeSegment(raws[k]) {
      SegmentOutcomesAt(raws, k);
    }
  }

  /** The error `normalizeTests` reports is that of the first throwing segment:
      every segment before it was handled without throwing. */
  lemma FirstFailureReported(raws: seq<string>) returns (k: nat)
    requires NormalizeTests(raws).Failure?
    ensures k < |raws| && NormalizeSegment(raws[k]) == Failure(NormalizeTests(raws).error)
    ensures forall j :: 0 <= j < k ==> NormalizeSegment(raws[j]).Success?
  {
    var os := SegmentOutcomes(raws);
    CollectIsGather(raws);
    k := GatherFirstFailure(os);
    SegmentOutcomesAt(raws, k);
    forall j | 0 <= j < k ensures NormalizeSegment(raws[j]).Success? {
      SegmentOutcomesAt(raws, j);
    }
  }

  /** A segment is dropped exactly when it names no analyte, or its number
      reads as NaN or as zero. */
  lemma SegmentDroppedIff(raw: string)
    ensures NormalizeSegment(raw) == Success(None) <==>
      || Classify(raw).None?
      || ReadValue(Classify(raw).value, raw) == Success(None)
      || ReadValue(Classify(raw).value, raw) == Success(Some(0.0))
  {
  }

  /** A segment throws exactly when it names an analyte but holds no character
      of the class that analyte's branch matches. */
  lemma SegmentFailsIff(raw: string)
    ensures NormalizeSegment(raw).Failure? <==>
      Classify(raw).Some? && forall i :: 0 <= i < |raw| ==> !InClass(raw[i], TokenClassOf(Classify(raw).value))
  {
    FirstRunNone(raw, DigitsOnly);
    FirstRunNone(raw, DigitsAndDots);
  }

  /** The chain enters the branch of an analyte exactly when its expression
      matches and none of the branches tried before it does. */
  lemma ClassifyPicksFirst(raw: string, a: Analyte)
    requires Mentions(raw, a)
    requires forall b :: Rank(b) < Rank(a) ==> !Mentions(raw, b)
    ensures Classify(raw) == Some(a)
  {
    var c := Classify(raw).value;
    assert Rank(c) == Rank(a) ==> DispatchOrder[Rank(c)] == DispatchOrder[Rank(a)];
  }

  /** A segment mentioning haemoglobin is Hemoglobin, whatever else it mentions. */
  lemma HemoglobinComesFirst(raw: string)
    requires ContainsCI(raw, "hemoglobin")
    ensures Classify(raw) == Some(Hemoglobin)
  {
  }

  /** Any "rec" in a segment without "hemoglobin" makes it an RBC segment. */
  lemma RecReadsAsRbc(raw: string)
    requires !ContainsCI(raw, "hemoglobin") && ContainsCI(raw, "rec")
    ensures Classify(raw) == Some(RBC)
  {
  }

  /** A platelet count is the first run of digits read in base 10; what
      follows the run, a dot included, is ignored. */
  lemma PlateletValueIsDigits(raw: string)
    requires FirstRun(raw, DigitsOnly).Some?
    ensures IsDigits(FirstRun(raw, DigitsOnly).value)
    ensures ReadValue(Platelet, raw) == Success(Some(DigitsValue(FirstRun(raw, DigitsOnly).value) as real))
  {
  }

  /** The other analytes read `parseFloat` of the first run of digits and
      dots; only Hemoglobin above 100 and RBC above 10 are divided, once, by
      ten, and every later branch keeps the number as read. */
  lemma ReadValueRescale(a: Analyte, raw: string)
    requires a != Platelet && FirstRun(raw, DigitsAndDots).Some?
    ensures AllInClass(FirstRun(raw, DigitsAndDots).value, DigitsAndDots)
    ensures ReadValue(a, raw).Success?
    ensures ParseFloatRun(FirstRun(raw, DigitsAndDots).value).None? ==> ReadValue(a, raw).value.None?
    ensures ParseFloatRun(FirstRun(raw, DigitsAndDots).value).Some? ==>
      var p := ParseFloatRun(FirstRun(raw, DigitsAndDots).value).value;
      && ReadValue(a, raw).value.Some?
      && var v := ReadValue(a, raw).value.value;
      && (v == p || v * 10.0 == p)
      && (a == Hemoglobin ==> (v != p <==> p > 100.0))
      && (a == RBC ==> (v != p <==> p > 10.0))
      && (a != Hemoglobin && a != RBC ==> v == p)
  {
  }
}

=== FILE: outcomes.dfy ===
/** Failure-carrying values shared by the modules of the model: `Option` for a
    JavaScript value that may be absent (a `null` match, a `NaN` number) and
    `Result` for a call that either returns or throws. */
module Outcomes {

  datatype Option<+T> = None | Some(value: T)

  datatype Result<+T, +E> = Success(value: T) | Failure(error: E)
}

=== FILE: pipeline.dfy ===
/** The deterministic part of the report route: the raw text is cut into test
    lines by `extractTestsRaw` and these are handed to `normalizeTests`. */
module Pipeline {
  import opened Outcomes
  import opened AsciiText
  import opened JsNumber
  import opened Extract
  import opened ExtractLemmas
  import opened Normalize
  import opened NormalizeLemmas

  /** `normalizeTests(extractTestsRaw(text))`. */
  function Process(text: string): Result<Normalized, NormalizeError> {
    NormalizeTests(ExtractTestsRaw(text))
  }

  /** A line that passed the extractor's digit filter always holds a numeric
      token, so the normaliser never throws on the extractor's output. */
  lemma ProcessNeverThrows(text: string)
    ensures Process(text).Success?
  {
    var raws := ExtractTestsRaw(text);
    NormalizeFailsIff(raws);
    forall k | 0 <= k < |raws| ensures NormalizeSegment(raws[k]).Success? {
      var raw := raws[k];
      assert HasDigit(raw);
      var i :| 0 <= i < |raw| && IsDigit(raw[i]);
      assert InClass(raw[i], DigitsOnly) && InClass(raw[i], DigitsAndDots);
      SegmentFailsIff(raw);
    }
  }

  /** Reports joined by a line break give the records of the first report
      followed by those of the second. */
  lemma ProcessAppend(a: string, b: string)
    ensures Process(a).Success? && Process(b).Success? && Process(a + "\n" + b).Success?
    ensures Process(a + "\n" + b).value.tests == Process(a).value.tests + Process(b).value.tests
  {
    ProcessNeverThrows(a);
    ProcessNeverThrows(b);
    ProcessNeverThrows(a + "\n" + b);
    ExtractAppend(a, b);
    CollectAppend(ExtractTestsRaw(a), ExtractTestsRaw(b));
  }
}

=== FILE: ref_ranges.dfy ===
/** The `REF_RANGES` catalog exported by src/utils/refRanges.js. */
module RefRanges {
  import opened LabTypes

  const Catalog: map<string, RangeEntry> := map[
    "Hemoglobin" := RangeEntry("g/dL", 12.0, 15.0),
    "WBC" := RangeEntry("/uL", 4000.0, 11000.0),
    "Platelet" := RangeEntry("/cumm", 150000.0, 410000.0),
    "PCV" := RangeEntry("%", 40.0, 50.0),
    "RBC" := RangeEntry("mill/cumm", 4.5, 5.5),
    "Neutrophils" := RangeEntry("%", 50.0, 62.0),
    "Lymphocytes" := RangeEntry("%", 20.0, 40.0),
    "Eosinophils" := RangeEntry("%", 0.0, 6.0),
    "Monocytes" := RangeEntry("%", 0.0, 10.0),
    "Basophils" := RangeEntry("%", 0.0, 2.0)
  ]

  /** The catalog covers exactly the ten analytes and every range is usable. */
  lemma CatalogWellFormed()
    ensures WellFormedTable(Catalog)
  {
  }
}

=== FILE: table_contrast.dfy ===
/** The two reference tables of the repository side by side: the inline table
    `normalizeTests` reads and the exported catalog of src/utils/refRanges.js.
    They cover the same analytes and agree everywhere except on the Hemoglobin
    range and on the WBC unit. */
module TableContrast {
  import opened LabTypes
  import RefRanges
  import Normalize

  /** Both tables are keyed by the same ten analyte names. */
  lemma SameKeys()
    ensures RefRanges.Catalog.Keys == Normalize.InlineRanges.Keys == AnalyteNames
  {
    RefRanges.CatalogWellFormed();
    Normalize.InlineRangesWellFormed();
  }

  /** An entry differs between the tables exactly for Hemoglobin and WBC. */
  lemma DifferOnlyAt(k: string)
    requires k in AnalyteNames
    ensures k in RefRanges.Catalog && k in Normalize.InlineRanges
    ensures RefRanges.Catalog[k] != Normalize.InlineRanges[k] <==> k == "Hemoglobin" || k == "WBC"
  {
    SameKeys();
  }

  /** The Hemoglobin range of the catalog is 12–15 g/dL, the one records carry is 13–17. */
  lemma HemoglobinRanges()
    ensures RefRanges.Catalog["Hemoglobin"].unit == Normalize.InlineRanges["Hemoglobin"].unit == "g/dL"
    ensures RefRanges.Catalog["Hemoglobin"].low == 12.0 && RefRanges.Catalog["Hemoglobin"].high == 15.0
    ensures Normalize.InlineRanges["Hemoglobin"].low == 13.0 && Normalize.InlineRanges["Hemoglobin"].high == 17.0
  {
  }

  /** The WBC range agrees, but the catalog writes the unit "/uL" and records carry "/cumm". */
  lemma WbcUnits()
    ensures RefRanges.Catalog["WBC"].low == Normalize.InlineRanges["WBC"].low == 4000.0
    ensures RefRanges.Catalog["WBC"].high == Normalize.InlineRanges["WBC"].high == 11000.0
    ensures RefRanges.Catalog["WBC"].unit == "/uL" && Normalize.InlineRanges["WBC"].unit == "/cumm"
  {
  }
}
